=== FILE: README.md ===
# Question generation: filtering, sampling and document assembly

A Dafny model of the decoding core of the SQuAD-style question generator in
`question-generation/interact.py`:

- **`top_filtering`** (`TopFiltering`, with `Scores` and `Ranking`): top-k,
  nucleus (top-p) and threshold filtering of one next-token score vector.
  Scores are reals or negative infinity. The descending sort is any index
  order that ranks the scores best first; the top-k result is shown not to
  depend on how that order breaks ties. The softmax takes the exponential as
  a parameter.
- **`sample_sequence`** (`Sampling`): the autoregressive loop that produces
  one question. The language model, the input builder and the random stream
  are parameters (`Collaborators`):
  - the model maps input ids, token type ids and an optional cached state to
    scores and a new cached state;
  - the random stream is "draw number `d` from a probability vector".
  The greedy pick, the special-token guard while the minimum length is not
  reached, its resampling loop, the stop on a special token and the length
  bound follow the source.
- **`run`** (`RunLoop`, `Assembly`, `Text`), per instance:
  - prime a new cached paragraph state when the paragraph index differs from
    the previous instance's, otherwise reuse the cached state;
  - generate the question;
  - add a record `question_<n>` to the paragraph entry found by position,
    checking that the stored paragraph text agrees;
  - locate the answer with `str.index`.

Modules: `Common` (tokens, instances, Python slicing), `Scores`, `Ranking`,
`TopFiltering`, `Text` (`%d` formatting and substring search), `Sampling`,
`Assembly`, `RunLoop`.

Two places where the code does something other than what one would
naturally assume; the model follows the code:

- `sample_sequence` advances the cached state while it generates but does
  not hand it back. `run` therefore passes the state primed at the start of a
  paragraph to every question of that paragraph. `RunLoop.Run` states this:
  the state used for instance `i` is `Prime` of the first instance of `i`'s
  block.
- The filter is not idempotent once top-p is on. The second pass
  renormalises over the survivors and can remove more
  (`TopFiltering.NucleusNotIdempotent`). Top-k alone is idempotent
  (`TopFiltering.TopKIdempotent`).

## Model

| member | source | states |
|---|---|---|
| `Ranking.KthBestAt` | question-generation/interact.py:36 | For any ranking order, a score lies strictly below the k-th best exactly when at least k entries lie strictly above it, so the top-k cut is independent of tie order |
| `Ranking.DescendingOrder` | question-generation/interact.py:41 | The sort used by the filter yields a permutation of all indices that ranks scores best first |
| `TopFiltering.TopK` | question-generation/interact.py:34-37 | Entry i becomes negative infinity exactly when at least k entries score strictly higher; otherwise it is unchanged |
| `TopFiltering.TopKKeepsLeaders` | question-generation/interact.py:34-37 | The k best-ranked entries survive top-k, so at least k entries survive; ties at the k-th score can keep more |
| `TopFiltering.TopKKeepsMaxima` | question-generation/interact.py:34-37 | Top-k never removes a largest score |
| `TopFiltering.TopKIdempotent` | question-generation/interact.py:33-37 | A second top-k with the same k, under any valid ranking of the filtered scores, changes nothing |
| `TopFiltering.TopP` | question-generation/interact.py:39-52 | The entry at sorted position j is removed exactly when the probability mass of the positions before it exceeds p; sorted position 0, a largest score, is always kept |
| `TopFiltering.NucleusIsSmallestPrefix` | question-generation/interact.py:26-29 | If the cumulative mass first exceeds p at sorted position m, top-p keeps exactly positions 0 to m: the smallest best-first set whose mass exceeds p |
| `TopFiltering.NucleusKeepsEnoughMass` | question-generation/interact.py:26-29 | Whenever some cumulative mass exceeds p, it returns the first sorted position m whose prefix mass exceeds p, no later than that one; top-p keeps positions 0 to m and removes every later one |
| `TopFiltering.NucleusKeepsAllBelow` | question-generation/interact.py:45-52 | When no prefix mass exceeds p, top-p removes nothing |
| `TopFiltering.FirstCrossing` | question-generation/interact.py:45-48 | Whenever some cumulative mass exceeds p, there is a first sorted position where it does, so the nucleus cut point exists |
| `TopFiltering.SoftmaxRemoved` | question-generation/interact.py:42 | Whatever the exponential, a score of negative infinity gets probability zero |
| `TopFiltering.SoftmaxNonNegative` | question-generation/interact.py:42 | With a positive exponential, every probability is at least zero |
| `TopFiltering.SoftmaxSumsToOne` | question-generation/interact.py:83 | With a positive exponential and at least one finite score, the probabilities sum to one |
| `TopFiltering.Threshold` | question-generation/interact.py:54-55 | An entry is kept exactly when it is not strictly below the threshold (negative infinity counts as kept); removed entries become negative infinity |
| `TopFiltering.TopKStep` | question-generation/interact.py:33-37 | k is first clamped to the vocabulary size; when it is positive, entry i becomes negative infinity exactly when at least k entries score strictly higher, otherwise it is unchanged; a largest score is never removed |
| `TopFiltering.NucleusStep` | question-generation/interact.py:39-52 | The entry at sorted position j of the descending order is removed exactly when the cumulative softmax of the sorted scores before position j exceeds p, otherwise unchanged; the best-ranked entry is kept |
| `TopFiltering.Filter` | question-generation/interact.py:21-57 | The composed filter only replaces entries by negative infinity; a survivor is one that top-k keeps and that is not below the threshold. With top-p off, an entry is removed exactly when top-k removes it or it is below the threshold. With top-p on, every entry that the nucleus rule removes from the top-k result, by its sorted position, ends up removed |
| `TopFiltering.FilterKeepsNucleusMass` | question-generation/interact.py:39-52 | With top-p strictly between 0 and 1 and a finite score, m is the first sorted position of the top-k result where the cumulative probability exceeds top-p; the whole filter keeps sorted positions 0 to m and removes every later one, so the survivors are the smallest best-first set carrying more than top-p of the mass |
| `TopFiltering.NucleusKeepsMass` | question-generation/interact.py:45-48 | For top-p strictly between 0 and 1 over scores with a finite entry, the nucleus step keeps sorted positions up to the first one where the cumulative mass exceeds top-p, and removes the rest |
| `TopFiltering.FilterDisabledIsIdentity` | question-generation/interact.py:21-57 | With top-k and top-p switched off and the default threshold, the scores come back unchanged |
| `TopFiltering.FilterKeepsBest` | question-generation/interact.py:21-57 | Under the default threshold, some largest score survives the whole filter, so there is always a token to pick |
| `TopFiltering.NucleusNotIdempotent` | question-generation/interact.py:39-52 | Counterexample: with weights 5, 3, 2 and top-p 0.6, filtering twice removes more than filtering once |
| `Scores.Scale` | question-generation/interact.py:81 | Dividing by a positive temperature keeps the length, keeps negative infinity, and preserves the order between every pair of scores |
| `Sampling.NextDistribution` | question-generation/interact.py:81-83 | The probability vector has one entry per score; a score that is negative infinity, that top-k removes after scaling, or that the whole filter (top-k and top-p) removes gets probability zero |
| `Sampling.NextDistributionIsDistribution` | question-generation/interact.py:81-83 | With a positive exponential and a finite score, the probabilities are non-negative and sum to one |
| `Sampling.Argmax` | question-generation/interact.py:85 | The greedy pick is an index of a largest probability, and no earlier index has one as large |
| `Sampling.Resample` | question-generation/interact.py:87-88 | A pick is the first draw that is not a special token; running out of patience means every draw was special |
| `Sampling.FirstPick` | question-generation/interact.py:85 | Greedy mode picks a largest probability and consumes no draw; sampling mode picks the next draw and consumes exactly one |
| `Sampling.Choose` | question-generation/interact.py:85-88 | Before the minimum length, a picked token is never special. Otherwise, or when the first pick is not special, the first pick stands. A special first pick before the minimum length is replaced by resampling from the position after the first pick. Exhaustion happens only in that case |
| `Sampling.Advance` | question-generation/interact.py:81-96 | One loop iteration: fails on an empty score vector, and exactly when resampling runs out. Otherwise, for the chosen token, it stops exactly when the token is special, with the question unchanged and only at or after the minimum length; when not special it appends exactly that token and moves to the random-stream position after the choice |
| `Sampling.GenerateStep` | question-generation/interact.py:73-96 | Below the length bound the loop's outcome is decided by the choice of the current iteration: failure, stop with the current question, or the outcome from the state after appending the chosen token |
| `Sampling.GenerateBounds` | question-generation/interact.py:73-96 | A finished loop extends its starting question with non-special tokens, within the length bound, up to the minimum length unless max_length is smaller, moving forward in the random stream; resampling can only run out below the minimum length |
| `Sampling.StopReached` | question-generation/interact.py:73-96 | A failed loop has a reached iteration that fails with the same reason |
| `Sampling.StopIsOutcome` | question-generation/interact.py:73-96 | A reached iteration that fails makes the whole loop fail with that reason |
| `Sampling.Launch` | question-generation/interact.py:71-83 | The sampler it builds is sound: its distribution keeps the length of the scores. That the loop repeats the last token type and chooses from `NextDistribution` holds by its definition |
| `Sampling.SampleBounds` | question-generation/interact.py:60-98 | The instance comes back with only its question replaced. The question has at most max_length tokens and no special token, and at least min_length tokens unless max_length is smaller. It fails for a missing token type exactly when the builder gives no token type ids |
| `Sampling.NextMove` | question-generation/interact.py:81-96 | The loop body of the method makes exactly the move `Advance` defines for the sampler `Launch` builds |
| `Sampling.SampleSequence` | question-generation/interact.py:60-98 | The method computes exactly `Sample`. `Sample` builds the input for the instance without question and paragraph, runs the model on it without its first position from the given cached state, then runs `Generate` from an empty question |
| `Text.NatToString` | question-generation/interact.py:175 | `%d` formatting gives a non-empty string of decimal digits without a leading zero |
| `Text.DecimalRoundTrip` | question-generation/interact.py:175 | Reading the formatted digits back yields the number |
| `Text.Find` | question-generation/interact.py:179 | The result is the first position where the answer occurs in the paragraph; it is -1 exactly when the answer occurs nowhere |
| `Assembly.QuestionIdsDistinct` | question-generation/interact.py:175 | Different question numbers give different record ids |
| `Assembly.QaFor` | question-generation/interact.py:174-184 | The record carries id question_n, the question decoded with special tokens skipped, the output's class and algorithm, the decoded answer, the first occurrence of the answer in the paragraph text, and is not marked impossible |
| `Assembly.AddResult` | question-generation/interact.py:170-200 | Accepted exactly when there is no entry at the index or its text equals the decoded paragraph, and the answer is found. A stored text that differs is a context mismatch; otherwise a missing answer is an answer-not-found error for that index. On success exactly one record is added, at the entry for the index or a new entry at the end, and every other entry is unchanged |
| `Assembly.Assemble` | question-generation/interact.py:147-202 | A completed assembly has version squash-2.0, one record per instance and at most one entry per instance |
| `Assembly.AssembleFirstFailure` | question-generation/interact.py:170-200 | A failed assembly fails at some instance i: the instances before i assemble, and adding instance i's record to that document gives the error |
| `Assembly.AssembleCounts` | question-generation/interact.py:147-202 | A completed assembly holds exactly one record per instance, at most one entry per instance, version squash-2.0, and no record marked impossible |
| `Assembly.AssembleGroups` | question-generation/interact.py:169-200 | For indices that start at 0 and rise by at most one, assembly succeeds exactly when instances with the same index decode to the same paragraph and every answer is found. Entry k then holds paragraph k's text and the records of its instances in arrival order |
| `Assembly.SkippedIndexSplitsParagraph` | question-generation/interact.py:170 | Entries are found by position: two instances of paragraph 1 with no paragraph 0 before them land in two separate entries |
| `RunLoop.BlockStart` | question-generation/interact.py:149-150 | The first instance of the run of equal paragraph indices that ends at i: it starts a block, and no instance after it up to i does |
| `Common.DropLastTwo` | question-generation/interact.py:157-158 | The slice `[:-2]`: with at least two elements, the result followed by the last two elements gives back the list; with fewer, it is empty |
| `Common.Tail` | question-generation/interact.py:67-68 | The slice `[1:]`: the first element followed by the result gives back a non-empty list; an empty list gives an empty result |
| `RunLoop.Visit` | question-generation/interact.py:148-202 | One iteration fails exactly when the sampler fails for the instance from its cached state, or the assembler refuses the generated record, with that error; otherwise it keeps the run's state consistent and appends exactly one output |
| `RunLoop.Run` | question-generation/interact.py:143-202 | A completed run has one output per instance, each the sampler's result from the state primed at its block's first instance and the stream position where the previous generation stopped; states are primed exactly where the paragraph index changes; the document is the assembly of the outputs, grouped by paragraph when indices are well numbered. An aborted run stops at the first failing instance with that instance's sampler or assembler error, after a consistent prefix. `Prime`, by definition, is the model run from no cached state over the built input and token type ids, each cut by `DropLastTwo` |

## Left out

- Input and output: argument parsing, logging, loading models, tokenizers and the instance file, and writing the JSON document. The model returns the document.
- The language model, the tokenizer's encoder and decoder, and `build_input_from_segments` are parameters. The code behind them (`train.py`, `dataloader.py`, the transformer library) is not part of this model.
- Floating point: scores and probabilities are exact reals, and the exponential is an abstract function. NaN and rounding in the softmax and cumulative sums are not modelled.
- Seeding and randomness: `torch.multinomial` is an oracle indexed by the draw number, so the probability law of the draws is not modelled.
- A score vector that is all negative infinity makes the source's softmax give NaN, and in sampling mode `torch.multinomial` then raises. The model's softmax gives zeros instead, and the model does not raise. This can only arise when every score was already negative infinity before filtering.
- `Sampling.Resample`: the source loops without bound while the draw is special; the model stops after `patience` draws and reports `ResamplingExhausted`.
- `Sampling.SampleSequence`, `Sampling.Sample`, `Sampling.Launch`, `Sampling.NextDistribution`, `Scores.Scale`, `RunLoop.Visit`, `RunLoop.Run`: the temperature must be positive. Argument parsing declares the temperature with `type=int`: a command-line value such as `0.5` is rejected as an invalid int, so only the 0.7 default is fractional, while `0` or a negative integer is accepted. The source then divides by zero (infinities or NaN) or reverses the ranking; the model does not cover those runs.
- `RunLoop.Run`: paragraph indices are natural numbers. A negative `para_index` in the source would index the paragraph list from its end, or raise on an empty list (line 170).
- `Sampling.Sampler`: the loop's distribution is a field of the sampler, and `Launch` always sets it to `NextDistribution`; lemmas about the loop hold for any sampler.
- `torch.topk` breaks ties in the greedy pick by an unspecified rule; the model picks the first largest probability.
- `torch.sort` orders ties in an unspecified way: `TopK` and `TopP` accept any valid descending order, and the composed filter uses one fixed insertion sort.
- The extra keys that `sample_sequence` writes into the instance (`original_question`, `orig_paragraph`, `original_context`) are not read by the driver, and are not modelled.
- The deep copy `instance1` in `run` (lines 152-155) is never used. The prime builds its input from the original instance, as the model does.
- Python's `str.index` raises when the answer is missing: the model reports `AnswerNotFound` through `Text.Find`. The `assert` on the stored paragraph text becomes `ContextMismatch`. Both abort the run at that instance.
- The `data` list wrapper around the paragraph list and the one-element `answers` list of each record are flattened into `Document` and `QA`.

=== FILE: assembly.dfy ===
/** Assembly of the output document: every generated question becomes one
    question/answer record, grouped under its paragraph in a SQuAD-style
    document. Paragraph entries are found by position: the entry for
    paragraph index `p` is the `p`-th entry of the list. */
module Assembly {
  import opened Common
  import opened Text

  /** One question/answer record. `answerStart` is the position of the
      answer text in the paragraph text. */
  datatype QA = QA(
    id: string,
    question: string,
    answerText: string,
    answerStart: int,
    cls: string,
    algorithm: string,
    isImpossible: bool)

  /** One paragraph entry: the paragraph text and its records in arrival
      order. */
  datatype Paragraph = Paragraph(context: string, qas: seq<QA>)

  datatype Document = Document(version: string, paragraphs: seq<Paragraph>)

  datatype AssemblyError =
    | ContextMismatch(paraIndex: nat)  // the paragraph decodes differently from the stored entry
    | AnswerNotFound(paraIndex: nat)   // the answer text does not occur in the paragraph text

  const Version: string := "squash-2.0"

  /** The document before the first instance. */
  const EmptyDocument: Document := Document(Version, [])

  /** The tokenizer's decoder: tokens to text, optionally dropping special
      tokens. */
  type Decoder = (seq<Token>, bool) -> string

  function ParagraphText(decode: Decoder, out: Instance): string
  {
    decode(out.paragraph, false)
  }

  function AnswerText(decode: Decoder, out: Instance): string
  {
    decode(out.answer, true)
  }

  /** The id of the `n`-th record of the run. */
  function QuestionId(n: nat): string
  {
    "question_" + NatToString(n)
  }

  /** Records of different instances of a run never share an id. */
  lemma QuestionIdsDistinct(m: nat, n: nat)
    requires m != n
    ensures QuestionId(m) != QuestionId(n)
  {
    NatToStringInjective(m, n);
    assert NatToString(m) == QuestionId(m)[9..];
    assert NatToString(n) == QuestionId(n)[9..];
  }

  /** The record for the `n`-th instance of the run. Its answer start is the
      first occurrence of the answer text in the paragraph text, or -1 when
      there is none (the assembler refuses that case). */
  function QaFor(n: nat, out: Instance, decode: Decoder): (qa: QA)
    ensures qa.id == QuestionId(n) && !qa.isImpossible
    ensures qa.question == decode(out.question, true) && qa.cls == out.cls && qa.algorithm == out.algorithm
    ensures qa.answerText == AnswerText(decode, out)
    ensures qa.answerStart >= 0 ==>
      OccursAt(ParagraphText(decode, out), qa.answerText, qa.answerStart)
      && forall k :: 0 <= k < qa.answerStart ==> !OccursAt(ParagraphText(decode, out), qa.answerText, k)
    ensures qa.answerStart < 0 <==> forall k :: !OccursAt(ParagraphText(decode, out), qa.answerText, k)
  {
    var context := ParagraphText(decode, out);
    var answer := AnswerText(decode, out);
    QA(QuestionId(n), decode(out.question, true), answer, Find(context, answer),
       out.cls, out.algorithm, false)
  }

  /** Number of records in a list of paragraph entries. */
  function CountQas(ps: seq<Paragraph>): nat
  {
    if |ps| == 0 then 0 else CountQas(ps[..|ps| - 1]) + |ps[|ps| - 1].qas|
  }

  lemma {:induction false} CountQasUpdate(ps: seq<Paragraph>, k: nat, p: Paragraph)
    requires k < |ps|
    ensures CountQas(ps[k := p]) + |ps[k].qas| == CountQas(ps) + |p.qas|
  {
    if k < |ps| - 1 {
      assert ps[k := p][..|ps| - 1] == ps[..|ps| - 1][k := p];
      CountQasUpdate(ps[..|ps| - 1], k, p);
    } else {
      assert ps[k := p][..|ps| - 1] == ps[..|ps| - 1];
    }
  }

  lemma CountQasAppend(ps: seq<Paragraph>, p: Paragraph)
    ensures CountQas(ps + [p]) == CountQas(ps) + |p.qas|
  {
    assert (ps + [p])[..|ps|] == ps;
  }

  /** Where the record of `out` goes: its paragraph index when an entry
      already exists there, otherwise a new entry at the end. */
  function Slot(doc: Document, out: Instance): nat
  {
    if out.paraIndex < |doc.paragraphs| then out.paraIndex else |doc.paragraphs|
  }

  /** The records already stored at the slot of `out`. */
  function PriorQas(doc: Document, out: Instance): seq<QA>
  {
    if out.paraIndex < |doc.paragraphs| then doc.paragraphs[out.paraIndex].qas else []
  }

  /** Adds the record of the `n`-th instance of the run. When an entry exists
      at the instance's paragraph index, its text must equal the decoded
      paragraph; the record is appended to that entry. Otherwise a new entry
      with the decoded paragraph and the single record is appended to the
      list. Either way the answer text must occur in the paragraph text. */
  function AddResult(doc: Document, n: nat, out: Instance, decode: Decoder): (r: Result<Document, AssemblyError>)
    ensures r.Ok? <==>
      (out.paraIndex >= |doc.paragraphs| || doc.paragraphs[out.paraIndex].context == ParagraphText(decode, out))
      && Find(ParagraphText(decode, out), AnswerText(decode, out)) >= 0
    ensures out.paraIndex < |doc.paragraphs| && doc.paragraphs[out.paraIndex].context != ParagraphText(decode, out) ==>
      r == Err(ContextMismatch(out.paraIndex))
    ensures ((out.paraIndex >= |doc.paragraphs| || doc.paragraphs[out.paraIndex].context == ParagraphText(decode, out))
             && Find(ParagraphText(decode, out), AnswerText(decode, out)) < 0) ==>
      r == Err(AnswerNotFound(out.paraIndex))
    ensures r.Ok? ==> r.value.version == doc.version
    ensures r.Ok? ==> |r.value.paragraphs| == |doc.paragraphs| + (if out.paraIndex < |doc.paragraphs| then 0 else 1)
    ensures r.Ok? ==> CountQas(r.value.paragraphs) == CountQas(doc.paragraphs) + 1
    ensures r.Ok? ==>
      r.value.paragraphs[Slot(doc, out)] == Paragraph(ParagraphText(decode, out), PriorQas(doc, out) + [QaFor(n, out, decode)])
    ensures r.Ok? ==> forall k :: 0 <= k < |doc.paragraphs| && k != Slot(doc, out) ==>
      r.value.paragraphs[k] == doc.paragraphs[k]
  {
    var context := ParagraphText(decode, out);
    var qa := QaFor(n, out, decode);
    var ps := doc.paragraphs;
    if out.paraIndex < |ps| then
      var entry := ps[out.paraIndex];
      if entry.context != context then Err(ContextMismatch(out.paraIndex))
      else if qa.answerStart < 0 then Err(AnswerNotFound(out.paraIndex))
      else
        var updated := Paragraph(entry.context, entry.qas + [qa]);
        CountQasUpdate(ps, out.paraIndex, updated);
        Ok(doc.(paragraphs := ps[out.paraIndex := updated]))
    else if qa.answerStart < 0 then Err(AnswerNotFound(out.paraIndex))
    else
      var entry := Paragraph(context, [qa]);
      CountQasAppend(ps, entry);
      Ok(doc.(paragraphs := ps + [entry]))
  }

  /** The document after the instances `outs`, numbered from 0 in arrival
      order, or the first error. A document holds one record per instance
      in at most one entry per instance, under version squash-2.0. */
  function Assemble(outs: seq<Instance>, decode: Decoder): (r: Result<Document, AssemblyError>)
    ensures r.Ok? ==> r.value.version == Version && CountQas(r.value.paragraphs) == |outs|
    ensures r.Ok? ==> |r.value.paragraphs| <= |outs|
  {
    if |outs| == 0 then Ok(EmptyDocument)
    else
      match Assemble(outs[..|outs| - 1], decode)
      case Err(e) => Err(e)
      case Ok(doc) => AddResult(doc, |outs| - 1, outs[|outs| - 1], decode)
  }

  /** Whatever the paragraph numbering, each instance adds exactly one record
      and at most one entry, and no record is marked impossible. */
  lemma {:induction false} AssembleCounts(outs: seq<Instance>, decode: Decoder)
    ensures Assemble(outs, decode).Ok? ==>
      var doc := Assemble(outs, decode).value;
      && doc.version == Version
      && CountQas(doc.paragraphs) == |outs|
      && |doc.paragraphs| <= |outs|
      && forall k, j :: 0 <= k < |doc.paragraphs| && 0 <= j < |doc.paragraphs[k].qas| ==>
           !doc.paragraphs[k].qas[j].isImpossible
  {
    if |outs| > 0 {
      var front := outs[..|outs| - 1];
      AssembleCounts(front, decode);
      if Assemble(front, decode).Ok? && Assemble(outs, decode).Ok? {
        var before := Assemble(front, decode).value;
        var doc := Assemble(outs, decode).value;
        var s := Slot(before, outs[|outs| - 1]);
        forall k, j | 0 <= k < |doc.paragraphs| && 0 <= j < |doc.paragraphs[k].qas|
          ensures !doc.paragraphs[k].qas[j].isImpossible
        {
          if k != s {
            assert doc.paragraphs[k] == before.paragraphs[k];
          } else if j < |doc.paragraphs[k].qas| - 1 {
            assert doc.paragraphs[k].qas[j] == before.paragraphs[k].qas[j];
          }
        }
      }
    }
  }

  /** A failed assembly fails at its first refused instance: every shorter
      prefix up to it assembles, and adding that instance's record gives the
      error. */
  lemma {:induction false} AssembleFirstFailure(outs: seq<Instance>, decode: Decoder) returns (i: nat)
    requires Assemble(outs, decode).Err?
    ensures i < |outs| && Assemble(outs[..i], decode).Ok?
    ensures AddResult(Assemble(outs[..i], decode).value, i, outs[i], decode) == Assemble(outs, decode)
  {
    var front := outs[..|outs| - 1];
    if Assemble(front, decode).Err? {
      i := AssembleFirstFailure(front, decode);
      assert front[..i] == outs[..i];
    } else {
      i := |outs| - 1;
      assert outs[..i] == front;
    }
  }

  // ------------------------------------------------- contiguous paragraph indices

  /** Paragraph indices that start at 0 and, from one instance to the next,
      stay the same or go up by one: what the positional lookup of entries
      relies on. */
  predicate WellNumbered(outs: seq<Instance>)
  {
    && (|outs| > 0 ==> outs[0].paraIndex == 0)
    && forall i :: 0 < i < |outs| ==>
         outs[i].paraIndex == outs[i - 1].paraIndex || outs[i].paraIndex == outs[i - 1].paraIndex + 1
  }

  /** Instances with the same paragraph index decode to the same text. */
  predicate SameParagraphText(outs: seq<Instance>, decode: Decoder)
  {
    forall i, j :: 0 <= i < |outs| && 0 <= j < |outs| && outs[i].paraIndex == outs[j].paraIndex ==>
      ParagraphText(decode, outs[i]) == ParagraphText(decode, outs[j])
  }

  /** Every answer text occurs in its paragraph text. */
  predicate AnswersFound(outs: seq<Instance>, decode: Decoder)
  {
    forall i :: 0 <= i < |outs| ==> Find(ParagraphText(decode, outs[i]), AnswerText(decode, outs[i])) >= 0
  }

  /** The record of the `n`-th instance if its paragraph index is `k`. */
  function Tagged(n: nat, out: Instance, k: nat, decode: Decoder): seq<QA>
  {
    if out.paraIndex == k then [QaFor(n, out, decode)] else []
  }

  /** The records of the instances with paragraph index `k`, in arrival
      order. */
  function Group(outs: seq<Instance>, k: nat, decode: Decoder): seq<QA>
  {
    if |outs| == 0 then []
    else
      Group(outs[..|outs| - 1], k, decode) + Tagged(|outs| - 1, outs[|outs| - 1], k, decode)
  }

  lemma {:induction false} GroupOfUnusedIndex(outs: seq<Instance>, k: nat, decode: Decoder)
    requires forall i :: 0 <= i < |outs| ==> outs[i].paraIndex != k
    ensures Group(outs, k, decode) == []
  {
    if |outs| > 0 {
      GroupOfUnusedIndex(outs[..|outs| - 1], k, decode);
    }
  }

  lemma {:induction false} WellNumberedMonotone(outs: seq<Instance>)
    requires WellNumbered(outs)
    ensures forall i :: 0 <= i < |outs| ==> outs[i].paraIndex <= outs[|outs| - 1].paraIndex
  {
    if |outs| > 1 {
      WellNumberedMonotone(outs[..|outs| - 1]);
    }
  }

  /** What the assembled prefix looks like, for the induction below. */
  predicate GroupedAs(doc: Document, outs: seq<Instance>, decode: Decoder)
  {
    && |doc.paragraphs| == (if |outs| == 0 then 0 else outs[|outs| - 1].paraIndex + 1)
    && (forall k :: 0 <= k < |doc.paragraphs| ==> doc.paragraphs[k].qas == Group(outs, k, decode))
    && (forall i :: 0 <= i < |outs| ==>
          outs[i].paraIndex < |doc.paragraphs|
          && doc.paragraphs[outs[i].paraIndex].context == ParagraphText(decode, outs[i]))
  }

  /** The last paragraph index of `front` and the index `p` that follows it
      in a well-numbered run. */
  predicate Continues(front: seq<Instance>, p: nat)
  {
    if |front| == 0 then p == 0
    else p == front[|front| - 1].paraIndex || p == front[|front| - 1].paraIndex + 1
  }

  lemma WellNumberedSnoc(front: seq<Instance>, last: Instance)
    ensures WellNumbered(front + [last]) <==> WellNumbered(front) && Continues(front, last.paraIndex)
  {
    var outs := front + [last];
    assert forall i :: 0 <= i < |front| ==> outs[i] == front[i];
    if WellNumbered(outs) {
      if |front| > 0 {
        assert outs[|front| - 1] == front[|front| - 1] && outs[|front|] == last;
      }
    }
  }

  lemma SameParagraphTextSnoc(front: seq<Instance>, last: Instance, decode: Decoder)
    ensures SameParagraphText(front + [last], decode) <==>
      SameParagraphText(front, decode)
      && forall i :: 0 <= i < |front| && front[i].paraIndex == last.paraIndex ==>
           ParagraphText(decode, front[i]) == ParagraphText(decode, last)
  {
    var outs := front + [last];
    assert forall i :: 0 <= i < |front| ==> outs[i] == front[i];
    assert outs[|front|] == last;
  }

  lemma AnswersFoundSnoc(front: seq<Instance>, last: Instance, decode: Decoder)
    ensures AnswersFound(front + [last], decode) <==>
      AnswersFound(front, decode) && Find(ParagraphText(decode, last), AnswerText(decode, last)) >= 0
  {
    var outs := front + [last];
    assert forall i :: 0 <= i < |front| ==> outs[i] == front[i];
    assert outs[|front|] == last;
  }

  lemma AssembleSnoc(front: seq<Instance>, last: Instance, decode: Decoder)
    ensures Assemble(front + [last], decode) ==
      match Assemble(front, decode)
      case Err(e) => Err(e)
      case Ok(doc) => AddResult(doc, |front|, last, decode)
    ensures forall k :: Group(front + [last], k, decode) == Group(front, k, decode) + Tagged(|front|, last, k, decode)
  {
    assert (front + [last])[..|front|] == front;
  }

  /** Where the record of `last` lands in a well-numbered run: in the entry
      of the previous instance when the index repeats, in a new entry at the
      end when it goes up. */
  lemma SlotOfNext(front: seq<Instance>, last: Instance, decode: Decoder, before: Document)
    requires WellNumbered(front) && Continues(front, last.paraIndex)
    requires GroupedAs(before, front, decode)
    ensures last.paraIndex <= |before.paragraphs|
    ensures last.paraIndex < |before.paragraphs| ==>
      |front| > 0 && front[|front| - 1].paraIndex == last.paraIndex
    ensures last.paraIndex == |before.paragraphs| ==>
      forall i :: 0 <= i < |front| ==> front[i].paraIndex < last.paraIndex
  {
    if |front| > 0 {
      WellNumberedMonotone(front);
    }
  }

  /** The next record is accepted exactly when its paragraph agrees with the
      earlier instances of the same index and its answer is found. */
  lemma StepAccepted(front: seq<Instance>, last: Instance, decode: Decoder, before: Document)
    requires WellNumbered(front) && Continues(front, last.paraIndex)
    requires GroupedAs(before, front, decode) && SameParagraphText(front, decode)
    ensures AddResult(before, |front|, last, decode).Ok? <==>
      (forall i :: 0 <= i < |front| && front[i].paraIndex == last.paraIndex ==>
         ParagraphText(decode, front[i]) == ParagraphText(decode, last))
      && Find(ParagraphText(decode, last), AnswerText(decode, last)) >= 0
  {
    SlotOfNext(front, last, decode, before);
    if last.paraIndex < |before.paragraphs| {
      var prev := front[|front| - 1];
      assert before.paragraphs[last.paraIndex].context == ParagraphText(decode, prev);
      assert forall i :: 0 <= i < |front| && front[i].paraIndex == last.paraIndex ==>
        ParagraphText(decode, front[i]) == ParagraphText(decode, prev);
    }
  }

  /** After an accepted record the grouping still holds. */
  lemma StepGrouped(front: seq<Instance>, last: Instance, decode: Decoder, before: Document, doc: Document)
    requires WellNumbered(front) && Continues(front, last.paraIndex)
    requires GroupedAs(before, front, decode)
    requires SameParagraphText(front + [last], decode)
    requires AddResult(before, |front|, last, decode) == Ok(doc)
    ensures GroupedAs(doc, front + [last], decode)
  {
    var outs := front + [last];
    var p := last.paraIndex;
    SlotOfNext(front, last, decode, before);
    AssembleSnoc(front, last, decode);
    SameParagraphTextSnoc(front, last, decode);
    if p == |before.paragraphs| {
      GroupOfUnusedIndex(front, p, decode);
    }
    assert Slot(before, last) == p;
    forall k | 0 <= k < |doc.paragraphs| ensures doc.paragraphs[k].qas == Group(outs, k, decode) {
      if k != p {
        assert doc.paragraphs[k] == before.paragraphs[k];
      }
    }
    forall i | 0 <= i < |outs|
      ensures outs[i].paraIndex < |doc.paragraphs|
      ensures doc.paragraphs[outs[i].paraIndex].context == ParagraphText(decode, outs[i])
    {
      if i < |front| {
        assert outs[i] == front[i];
        if front[i].paraIndex != p {
          assert doc.paragraphs[front[i].paraIndex] == before.paragraphs[front[i].paraIndex];
        }
      }
    }
  }

  /** With well-numbered paragraph indices, the run assembles exactly when
      instances sharing an index decode to the same paragraph and every
      answer is found; then entry `k` holds the text of paragraph `k` and
      the records of its instances in arrival order. */
  lemma {:induction false} AssembleGroups(outs: seq<Instance>, decode: Decoder)
    requires WellNumbered(outs)
    ensures Assemble(outs, decode).Ok? <==> SameParagraphText(outs, decode) && AnswersFound(outs, decode)
    ensures Assemble(outs, decode).Ok? ==> GroupedAs(Assemble(outs, decode).value, outs, decode)
  {
    if |outs| > 0 {
      var front, last := outs[..|outs| - 1], outs[|outs| - 1];
      assert outs == front + [last];
      WellNumberedSnoc(front, last);
      SameParagraphTextSnoc(front, last, decode);
      AnswersFoundSnoc(front, last, decode);
      AssembleSnoc(front, last, decode);
      AssembleGroups(front, decode);
      if Assemble(front, decode).Ok? {
        var before := Assemble(front, decode).value;
        StepAccepted(front, last, decode, before);
        if Assemble(outs, decode).Ok? {
          StepGrouped(front, last, decode, before, Assemble(outs, decode).value);
        }
      }
    }
  }

  /** The positional lookup needs the numbering: two instances of the same
      paragraph numbered 1 (with no paragraph 0 before them) land in two
      separate entries. */
  lemma SkippedIndexSplitsParagraph(a: Instance, b: Instance, decode: Decoder)
    requires a.paraIndex == 1 && b.paraIndex == 1
    requires Find(ParagraphText(decode, a), AnswerText(decode, a)) >= 0
    requires Find(ParagraphText(decode, b), AnswerText(decode, b)) >= 0
    ensures Assemble([a, b], decode).Ok?
    ensures |Assemble([a, b], decode).value.paragraphs| == 2
  {
    var empty: seq<Instance> := [];
    AssembleSnoc(empty, a, decode);
    assert empty + [a] == [a];
    var first := AddResult(EmptyDocument, 0, a, decode);
    assert Assemble([a], decode) == first;
    assert first.Ok? && |first.value.paragraphs| == 1;
    AssembleSnoc([a], b, decode);
    assert [a] + [b] == [a, b];
    var second := AddResult(first.value, 1, b, decode);
    assert Assemble([a, b], decode) == second;
    assert second.Ok?;
  }
}

=== FILE: common.dfy ===
/** Values shared by every stage of question generation: token ids, the
    optional/fallible wrappers, one dataset instance and the segments the
    input builder produces for it. */
module Common {

  /** A vocabulary id of the tokenizer. */
  type Token = nat

  datatype Option<T> = None | Some(value: T)

  datatype Result<T, E> = Ok(value: T) | Err(error: E)

  /** One dataset instance: a paragraph, an answer span inside it, the
      question (the reference question on input, the generated one after
      sampling), the target class and algorithm labels, and the index of the
      paragraph the instance was cut from. */
  datatype Instance = Instance(
    paraIndex: nat,
    paragraph: seq<Token>,
    answer: seq<Token>,
    question: seq<Token>,
    cls: string,
    algorithm: string)

  /** What the input builder produces: the decoder input ids and the parallel
      segment (token type) ids. */
  datatype Segments = Segments(inputIds: seq<Token>, tokenTypeIds: seq<Token>)

  /** The slice `xs[1:]`: everything after the first element, and empty
      when `xs` is. */
  function Tail<T>(xs: seq<T>): (r: seq<T>)
    ensures |xs| > 0 ==> [xs[0]] + r == xs
    ensures |xs| == 0 ==> r == []
  {
    if |xs| == 0 then [] else xs[1..]
  }

  /** The slice `xs[:-2]`: everything before the last two elements, and
      empty when `xs` has fewer than two. */
  function DropLastTwo<T>(xs: seq<T>): (r: seq<T>)
    ensures |xs| >= 2 ==> |r| == |xs| - 2 && r + xs[|xs| - 2..] == xs
    ensures |xs| < 2 ==> r == []
  {
    if |xs| < 2 then [] else xs[..|xs| - 2]
  }
}

=== FILE: ranking.dfy ===
/** Ranking a score vector: the index order a descending sort returns, and
    what that order says about how many entries lie above a given score. */
module Ranking {
  import opened Scores

  /** The indices 0, 1, ..., n - 1. */
  function Range(n: nat): seq<nat>
  {
    seq(n, i requires 0 <= i < n => i)
  }

  predicate InBounds(xs: seq<nat>, n: nat)
  {
    forall j :: 0 <= j < |xs| ==> xs[j] < n
  }

  /** The indices `xs` list their scores from the highest to the lowest. */
  predicate SortedBy(s: seq<Score>, xs: seq<nat>)
    requires InBounds(xs, |s|)
  {
    forall a, b :: 0 <= a < b < |xs| ==> LessEq(s[xs[b]], s[xs[a]])
  }

  /** `order` is what a descending sort of `s` returns as its index output:
      every index of `s` exactly once, best score first. Ties may come in any
      order. */
  predicate IsDescendingOrder(s: seq<Score>, order: seq<nat>)
  {
    && |order| == |s|
    && InBounds(order, |s|)
    && multiset(order) == multiset(Range(|s|))
    && SortedBy(s, order)
  }

  /** Places index `i` into the ranked list `xs`, after every index whose
      score is at least as high. */
  function Insert(s: seq<Score>, i: nat, xs: seq<nat>): (r: seq<nat>)
    requires i < |s| && InBounds(xs, |s|)
    ensures |r| == |xs| + 1
    ensures InBounds(r, |s|)
    ensures multiset(r) == multiset(xs) + multiset{i}
  {
    if |xs| == 0 then [i]
    else if LessEq(s[i], s[xs[0]]) then
      assert xs == [xs[0]] + xs[1..];
      [xs[0]] + Insert(s, i, xs[1..])
    else
      [i] + xs
  }

  /** Everything `Insert` returns is the inserted index or was listed. */
  lemma InsertMembers(s: seq<Score>, i: nat, xs: seq<nat>, b: nat)
    requires i < |s| && InBounds(xs, |s|)
    requires b < |xs| + 1
    ensures Insert(s, i, xs)[b] == i || Insert(s, i, xs)[b] in xs
  {
    var r := Insert(s, i, xs);
    assert r[b] in multiset(r);
  }

  lemma {:induction false} InsertSorted(s: seq<Score>, i: nat, xs: seq<nat>)
    requires i < |s| && InBounds(xs, |s|)
    requires SortedBy(s, xs)
    ensures SortedBy(s, Insert(s, i, xs))
  {
    if |xs| > 0 {
      var r := Insert(s, i, xs);
      if LessEq(s[i], s[xs[0]]) {
        var rest := Insert(s, i, xs[1..]);
        InsertSorted(s, i, xs[1..]);
        assert r == [xs[0]] + rest;
        forall b | 0 < b < |r| ensures LessEq(s[r[b]], s[r[0]]) {
          InsertMembers(s, i, xs[1..], b - 1);
          if rest[b - 1] != i {
            var c :| 0 <= c < |xs[1..]| && xs[1..][c] == rest[b - 1];
            assert xs[c + 1] == r[b];
          }
        }
      } else {
        assert r == [i] + xs;
        forall b | 0 < b < |r| ensures LessEq(s[r[b]], s[r[0]]) {
          LessTransitive(s[xs[b - 1]], s[xs[0]], s[i]);
        }
      }
    }
  }

  /** Insertion sort of the index list `xs` by descending score. */
  function Sort(s: seq<Score>, xs: seq<nat>): (r: seq<nat>)
    requires InBounds(xs, |s|)
    ensures |r| == |xs|
    ensures InBounds(r, |s|)
    ensures multiset(r) == multiset(xs)
    ensures SortedBy(s, r)
  {
    if |xs| == 0 then []
    else
      assert xs == [xs[0]] + xs[1..];
      InsertSorted(s, xs[0], Sort(s, xs[1..]));
      Insert(s, xs[0], Sort(s, xs[1..]))
  }

  /** A descending order of `s`, breaking ties by the insertion above. */
  function DescendingOrder(s: seq<Score>): (order: seq<nat>)
    ensures IsDescendingOrder(s, order)
  {
    Sort(s, Range(|s|))
  }

  lemma {:induction false} RangeCount(n: nat, x: nat)
    ensures multiset(Range(n))[x] == if x < n then 1 else 0
  {
    if n > 0 {
      assert Range(n) == Range(n - 1) + [n - 1];
      RangeCount(n - 1, x);
    }
  }

  /** A descending order never lists an index twice. */
  lemma OrderDistinct(s: seq<Score>, order: seq<nat>)
    requires IsDescendingOrder(s, order)
    ensures forall a, b :: 0 <= a < b < |order| ==> order[a] != order[b]
  {
    forall a, b | 0 <= a < b < |order| ensures order[a] != order[b] {
      if order[a] == order[b] {
        var x := order[a];
        assert order == order[..a] + [x] + order[a + 1..b] + [x] + order[b + 1..];
        assert multiset(order)[x] >= 2;
        RangeCount(|s|, x);
        assert false;
      }
    }
  }

  /** A descending order lists every index of `s`. */
  lemma OrderCovers(s: seq<Score>, order: seq<nat>, i: nat)
    requires IsDescendingOrder(s, order)
    requires i < |s|
    ensures exists b :: 0 <= b < |order| && order[b] == i
  {
    RangeCount(|s|, i);
    assert i in multiset(order);
    assert i in order;
  }

  /** The first index of a descending order holds a largest score. */
  lemma FirstIsMax(s: seq<Score>, order: seq<nat>)
    requires IsDescendingOrder(s, order)
    requires |s| > 0
    ensures IsMaxAt(s, order[0])
  {
    forall j | 0 <= j < |s| ensures LessEq(s[j], s[order[0]]) {
      OrderCovers(s, order, j);
      var b :| 0 <= b < |order| && order[b] == j;
    }
  }

  /** Number of listed indices whose score is strictly above `x`. */
  function CountIdx(s: seq<Score>, xs: seq<nat>, x: Score): nat
    requires InBounds(xs, |s|)
  {
    if |xs| == 0 then 0
    else CountIdx(s, xs[..|xs| - 1], x) + (if Less(x, s[xs[|xs| - 1]]) then 1 else 0)
  }

  lemma {:induction false} CountIdxAppend(s: seq<Score>, a: seq<nat>, b: seq<nat>, x: Score)
    requires InBounds(a, |s|) && InBounds(b, |s|)
    ensures InBounds(a + b, |s|)
    ensures CountIdx(s, a + b, x) == CountIdx(s, a, x) + CountIdx(s, b, x)
  {
    if |b| > 0 {
      assert (a + b)[..|a + b| - 1] == a + b[..|b| - 1];
      CountIdxAppend(s, a, b[..|b| - 1], x);
    } else {
      assert a + b == a;
    }
  }

  lemma MultisetWithout(ys: seq<nat>, p: nat)
    requires p < |ys|
    ensures multiset(ys[..p] + ys[p + 1..]) == multiset(ys) - multiset{ys[p]}
  {
    assert ys == ys[..p] + [ys[p]] + ys[p + 1..];
  }

  lemma CountIdxWithout(s: seq<Score>, ys: seq<nat>, p: nat, x: Score)
    requires InBounds(ys, |s|)
    requires p < |ys|
    ensures InBounds(ys[..p] + ys[p + 1..], |s|)
    ensures CountIdx(s, ys, x)
         == CountIdx(s, ys[..p] + ys[p + 1..], x) + (if Less(x, s[ys[p]]) then 1 else 0)
  {
    assert ys == ys[..p] + [ys[p]] + ys[p + 1..];
    assert [ys[p]][..0] == [];
    CountIdxAppend(s, ys[..p], ys[p + 1..], x);
    CountIdxAppend(s, ys[..p], [ys[p]], x);
    CountIdxAppend(s, ys[..p] + [ys[p]], ys[p + 1..], x);
  }

  lemma DropLast(xs: seq<nat>)
    requires |xs| > 0
    ensures multiset(xs[..|xs| - 1]) == multiset(xs) - multiset{xs[|xs| - 1]}
  {
    assert xs == xs[..|xs| - 1] + [xs[|xs| - 1]];
  }

  lemma PositionOf(ys: seq<nat>, v: nat) returns (p: nat)
    requires v in multiset(ys)
    ensures p < |ys| && ys[p] == v
  {
    assert v in ys;
    p :| 0 <= p < |ys| && ys[p] == v;
  }

  /** The count depends only on which indices are listed, not on their order. */
  lemma {:induction false} CountIdxPermutation(s: seq<Score>, xs: seq<nat>, ys: seq<nat>, x: Score)
    requires InBounds(xs, |s|) && InBounds(ys, |s|)
    requires multiset(xs) == multiset(ys)
    ensures CountIdx(s, xs, x) == CountIdx(s, ys, x)
    decreases |xs|
  {
    if |xs| == 0 {
      assert |multiset(ys)| == 0;
    } else {
      var last := xs[|xs| - 1];
      DropLast(xs);
      var p := PositionOf(ys, last);
      MultisetWithout(ys, p);
      CountIdxWithout(s, ys, p, x);
      CountIdxPermutation(s, xs[..|xs| - 1], ys[..p] + ys[p + 1..], x);
    }
  }

  lemma {:induction false} CountIdxRange(s: seq<Score>, m: nat, x: Score)
    requires m <= |s|
    ensures InBounds(Range(m), |s|)
    ensures CountIdx(s, Range(m), x) == CountAbove(s[..m], x)
  {
    if m > 0 {
      assert Range(m)[..m - 1] == Range(m - 1);
      assert s[..m][..m - 1] == s[..m - 1];
      CountIdxRange(s, m - 1, x);
    }
  }

  /** Counting along any descending order counts the entries of `s`. */
  lemma CountAlongOrder(s: seq<Score>, order: seq<nat>, x: Score)
    requires IsDescendingOrder(s, order)
    ensures CountIdx(s, order, x) == CountAbove(s, x)
  {
    CountIdxRange(s, |s|, x);
    assert s[..|s|] == s;
    CountIdxPermutation(s, order, Range(|s|), x);
  }

  lemma {:induction false} CountIdxBounds(s: seq<Score>, xs: seq<nat>, x: Score)
    requires InBounds(xs, |s|)
    ensures CountIdx(s, xs, x) <= |xs|
    ensures (forall j :: 0 <= j < |xs| ==> Less(x, s[xs[j]])) ==> CountIdx(s, xs, x) == |xs|
    ensures (forall j :: 0 <= j < |xs| ==> LessEq(s[xs[j]], x)) ==> CountIdx(s, xs, x) == 0
  {
    if |xs| > 0 {
      CountIdxBounds(s, xs[..|xs| - 1], x);
    }
  }

  lemma KthBestAbove(s: seq<Score>, order: seq<nat>, k: nat, x: Score)
    requires IsDescendingOrder(s, order)
    requires 0 < k <= |s|
    requires Less(x, s[order[k - 1]])
    ensures CountIdx(s, order, x) >= k
  {
    var front := order[..k];
    forall j | 0 <= j < |front| ensures Less(x, s[front[j]]) {
      LessTransitive(x, s[order[k - 1]], s[front[j]]);
    }
    CountIdxBounds(s, front, x);
    assert order == front + order[k..];
    CountIdxAppend(s, front, order[k..], x);
  }

  lemma KthBestNotAbove(s: seq<Score>, order: seq<nat>, k: nat, x: Score)
    requires IsDescendingOrder(s, order)
    requires 0 < k <= |s|
    requires !Less(x, s[order[k - 1]])
    ensures CountIdx(s, order, x) < k
  {
    var back := order[k - 1..];
    forall j | 0 <= j < |back| ensures LessEq(s[back[j]], x) {
      LessTransitive(s[back[j]], s[order[k - 1]], x);
    }
    CountIdxBounds(s, back, x);
    CountIdxBounds(s, order[..k - 1], x);
    assert order == order[..k - 1] + back;
    CountIdxAppend(s, order[..k - 1], back, x);
  }

  /** A score `x` lies strictly below the `k`-th best score of `s`
      (position `k - 1` of a descending order) exactly when at least `k`
      entries of `s` lie strictly above `x`. */
  lemma KthBestAt(s: seq<Score>, order: seq<nat>, k: nat, x: Score)
    requires IsDescendingOrder(s, order)
    requires 0 < k <= |s|
    ensures Less(x, s[order[k - 1]]) <==> CountAbove(s, x) >= k
  {
    CountAlongOrder(s, order, x);
    if Less(x, s[order[k - 1]]) {
      KthBestAbove(s, order, k, x);
    } else {
      KthBestNotAbove(s, order, k, x);
    }
  }

  /** `KthBestAt` for every score at once: the `k`-th best score is the
      same whichever way ties are ordered. */
  lemma KthBest(s: seq<Score>, order: seq<nat>, k: nat)
    requires IsDescendingOrder(s, order)
    requires 0 < k <= |s|
    ensures forall x :: Less(x, s[order[k - 1]]) <==> CountAbove(s, x) >= k
  {
    forall x ensures Less(x, s[order[k - 1]]) <==> CountAbove(s, x) >= k {
      KthBestAt(s, order, k, x);
    }
  }
}

=== FILE: run_loop.dfy ===
/** The driver loop: for each instance in order, reuse or rebuild the cached
    paragraph state, generate a question from it and add the record to the
    output document. */
module RunLoop {
  import opened Common
  import opened Sampling
  import opened Assembly

  /** The cached state for the paragraph of `inst`: the language model run
      from no cached state over the instance's full built input without its
      last two positions (all of it gone when it has fewer than two). */
  function Prime<P>(inst: Instance, env: Collaborators<P>): P
  {
    var segments := env.build(inst);
    env.model(DropLastTwo(segments.inputIds), DropLastTwo(segments.tokenTypeIds), None).past
  }

  /** The driver primes a fresh cached state before instance `i` exactly
      when it is the first instance or its paragraph index differs from the
      previous instance's. */
  predicate StartsBlock(insts: seq<Instance>, i: nat)
    requires i < |insts|
  {
    i == 0 || insts[i].paraIndex != insts[i - 1].paraIndex
  }

  /** The first instance of the run of consecutive instances, ending at `i`,
      that share `insts[i]`'s paragraph index. */
  function BlockStart(insts: seq<Instance>, i: nat): (j: nat)
    requires i < |insts|
    ensures j <= i && StartsBlock(insts, j)
    ensures forall k :: j <= k <= i ==> insts[k].paraIndex == insts[i].paraIndex
    ensures forall k :: j < k <= i ==> !StartsBlock(insts, k)
  {
    if StartsBlock(insts, i) then i else BlockStart(insts, i - 1)
  }

  datatype RunError =
    | SamplerFailed(reason: SampleError)
    | AssemblerFailed(error: AssemblyError)

  /** The driver's state after a prefix of the instances: the document so
      far, the outputs, the cached state each generation started from,
      whether it was primed there, the position in the random stream each
      generation started from, and the position reached. */
  datatype Progress<P> = Progress(document: Document, outputs: seq<Instance>, caches: seq<P>,
                                  primed: seq<bool>, starts: seq<nat>, rng: nat)

  /** A finished run, or one aborted at instance `at` with the state reached
      after the instances before it. */
  datatype RunResult<P> =
    | Completed(final: Progress<P>)
    | Aborted(error: RunError, at: nat, partial: Progress<P>)

  /** Only paragraph indices matter for numbering. */
  lemma WellNumberedByIndices(a: seq<Instance>, b: seq<Instance>)
    requires |a| == |b| && forall i :: 0 <= i < |a| ==> a[i].paraIndex == b[i].paraIndex
    ensures WellNumbered(a) <==> WellNumbered(b)
  {
  }

  /** `out` is `inst` with a generated question that respects the length
      bound and holds no special token. */
  predicate Answered(inst: Instance, out: Instance, cfg: Config, special: set<Token>)
  {
    && out == inst.(question := out.question)
    && |out.question| <= Bound(cfg.maxLength)
    && forall t :: t in out.question ==> t !in special
  }

  predicate AllAnswered(insts: seq<Instance>, outs: seq<Instance>, cfg: Config, special: set<Token>)
  {
    |outs| <= |insts| && forall j :: 0 <= j < |outs| ==> Answered(insts[j], outs[j], cfg, special)
  }

  /** The cached state recorded for instance `j` is the one primed from its
      block's first instance. */
  ghost predicate CachedAt<P>(insts: seq<Instance>, caches: seq<P>, j: nat, env: Collaborators<P>)
    requires j < |caches| <= |insts|
  {
    caches[j] == Prime(insts[BlockStart(insts, j)], env)
  }

  ghost predicate CachesFollowBlocks<P>(insts: seq<Instance>, caches: seq<P>, env: Collaborators<P>)
  {
    |caches| <= |insts| && forall j :: 0 <= j < |caches| ==> CachedAt(insts, caches, j, env)
  }

  /** A cached state was primed exactly where a block starts. */
  predicate PrimedAtBlocks(insts: seq<Instance>, primed: seq<bool>)
  {
    |primed| <= |insts| && forall j :: 0 <= j < |primed| ==> (primed[j] <==> StartsBlock(insts, j))
  }

  /** The driver's cache rule keeps the cached states in step with the
      blocks: a new block primes from its own first instance, a continuing
      one keeps the previous state. */
  lemma CachesStep<P>(insts: seq<Instance>, caches: seq<P>, env: Collaborators<P>, past: P)
    requires CachesFollowBlocks(insts, caches, env) && |caches| < |insts|
    requires StartsBlock(insts, |caches|) ==> past == Prime(insts[|caches|], env)
    requires !StartsBlock(insts, |caches|) ==> past == caches[|caches| - 1]
    ensures CachesFollowBlocks(insts, caches + [past], env)
  {
    var next := caches + [past];
    forall j | 0 <= j < |next| ensures CachedAt(insts, next, j, env) {
      if j < |caches| {
        assert next[j] == caches[j] && CachedAt(insts, caches, j, env);
      } else if !StartsBlock(insts, j) {
        assert next[j] == caches[j - 1] && CachedAt(insts, caches, j - 1, env);
      }
    }
  }

  lemma PrimedStep(insts: seq<Instance>, primed: seq<bool>, opens: bool)
    requires PrimedAtBlocks(insts, primed) && |primed| < |insts|
    requires opens <==> StartsBlock(insts, |primed|)
    ensures PrimedAtBlocks(insts, primed + [opens])
  {
    assert forall j :: 0 <= j < |primed| ==> (primed + [opens])[j] == primed[j];
  }

  /** Where generation `j` of `p` ended in the random stream: where the
      next one started, or the position reached after the last. */
  function EndOf<P>(p: Progress<P>, j: nat): nat
  {
    if j + 1 < |p.starts| then p.starts[j + 1] else p.rng
  }

  /** Output `j` is what the sampler produces for instance `j` from the
      recorded cached state and stream position. */
  predicate SampledAt<P>(insts: seq<Instance>, p: Progress<P>, j: nat, cfg: Config, special: set<Token>,
                         env: Collaborators<P>, patience: nat)
    requires cfg.temperature > 0.0
    requires j < |p.outputs| && |p.outputs| == |p.caches| == |p.starts| <= |insts|
  {
    Sample(insts[j], cfg, special, env, Some(p.caches[j]), p.starts[j], patience) == Generated(p.outputs[j], EndOf(p, j))
  }

  /** Every output is the sampler's, and the generations consume the random
      stream one after the other from `origin` on. */
  predicate AllSampled<P>(insts: seq<Instance>, p: Progress<P>, cfg: Config, special: set<Token>,
                          env: Collaborators<P>, patience: nat, origin: nat)
    requires cfg.temperature > 0.0
  {
    && |p.outputs| == |p.caches| == |p.starts| <= |insts|
    && (if |p.starts| == 0 then p.rng == origin else p.starts[0] == origin)
    && forall j :: 0 <= j < |p.outputs| ==> SampledAt(insts, p, j, cfg, special, env, patience)
  }

  /** What holds of the state after the first `|p.outputs|` instances of a
      run that started at position `origin` of the random stream. */
  ghost predicate Consistent<P>(insts: seq<Instance>, p: Progress<P>, cfg: Config, special: set<Token>,
                                env: Collaborators<P>, decode: Decoder, patience: nat, origin: nat)
    requires cfg.temperature > 0.0
  {
    && |p.outputs| == |p.caches| == |p.primed| == |p.starts| <= |insts|
    && Assemble(p.outputs, decode) == Ok(p.document)
    && CachesFollowBlocks(insts, p.caches, env)
    && PrimedAtBlocks(insts, p.primed)
    && AllSampled(insts, p, cfg, special, env, patience, origin)
  }

  /** The cached state the driver hands the sampler for instance
      `|caches|`: primed afresh at the start of a block, otherwise the one
      the previous instance used. */
  function PastFor<P>(insts: seq<Instance>, caches: seq<P>, env: Collaborators<P>): P
    requires |caches| < |insts|
  {
    if StartsBlock(insts, |caches|) then Prime(insts[|caches|], env) else caches[|caches| - 1]
  }

  /** What stops the driver at instance `|p.outputs|`, if anything: the
      sampler's failure, or the assembler's refusal of the generated
      instance. */
  function NextFailure<P>(insts: seq<Instance>, p: Progress<P>, cfg: Config, special: set<Token>,
                          env: Collaborators<P>, decode: Decoder, patience: nat): Option<RunError>
    requires cfg.temperature > 0.0
    requires |p.outputs| == |p.caches| < |insts|
  {
    var g := Sample(insts[|p.outputs|], cfg, special, env, Some(PastFor(insts, p.caches, env)), p.rng, patience);
    if g.Failed? then Some(SamplerFailed(g.reason))
    else
      match AddResult(p.document, |p.outputs|, g.output, decode)
      case Err(e) => Some(AssemblerFailed(e))
      case Ok(_) => None
  }

  /** Outputs that are the sampler's answer their instances. */
  lemma SampledAnswered<P>(insts: seq<Instance>, p: Progress<P>, cfg: Config, special: set<Token>,
                           env: Collaborators<P>, patience: nat, origin: nat)
    requires cfg.temperature > 0.0
    requires AllSampled(insts, p, cfg, special, env, patience, origin)
    ensures AllAnswered(insts, p.outputs, cfg, special)
  {
    forall j | 0 <= j < |p.outputs| ensures Answered(insts[j], p.outputs[j], cfg, special) {
      assert SampledAt(insts, p, j, cfg, special, env, patience);
      SampleBounds(insts[j], cfg, special, env, Some(p.caches[j]), p.starts[j], patience);
    }
  }

  /** Recording the sampler's output for the next instance keeps every
      output the sampler's. */
  lemma SampledStep<P>(insts: seq<Instance>, p: Progress<P>, cfg: Config, special: set<Token>,
                       env: Collaborators<P>, patience: nat, origin: nat, q: Progress<P>)
    requires cfg.temperature > 0.0
    requires AllSampled(insts, p, cfg, special, env, patience, origin) && |p.outputs| < |insts|
    requires |q.outputs| == |q.caches| == |q.starts| == |p.outputs| + 1
    requires q.outputs[..|p.outputs|] == p.outputs && q.caches[..|p.outputs|] == p.caches
    requires q.starts == p.starts + [p.rng]
    requires Sample(insts[|p.outputs|], cfg, special, env, Some(q.caches[|p.outputs|]), p.rng, patience)
          == Generated(q.outputs[|p.outputs|], q.rng)
    ensures AllSampled(insts, q, cfg, special, env, patience, origin)
  {
    var n := |p.outputs|;
    forall j | 0 <= j < |q.outputs| ensures SampledAt(insts, q, j, cfg, special, env, patience) {
      if j < n {
        assert q.outputs[j] == p.outputs[j] && q.caches[j] == p.caches[j] && q.starts[j] == p.starts[j];
        assert EndOf(q, j) == EndOf(p, j);
        assert SampledAt(insts, p, j, cfg, special, env, patience);
      } else {
        assert q.starts[j] == p.rng && EndOf(q, j) == q.rng;
      }
    }
  }

  /** Recording one more accepted instance keeps the state consistent. */
  lemma ConsistentStep<P>(insts: seq<Instance>, p: Progress<P>, cfg: Config, special: set<Token>,
                          env: Collaborators<P>, decode: Decoder, patience: nat, origin: nat,
                          out: Instance, past: P, opens: bool, doc: Document, rng: nat)
    requires cfg.temperature > 0.0
    requires Consistent(insts, p, cfg, special, env, decode, patience, origin) && |p.outputs| < |insts|
    requires Sample(insts[|p.outputs|], cfg, special, env, Some(past), p.rng, patience) == Generated(out, rng)
    requires Assemble(p.outputs + [out], decode) == Ok(doc)
    requires opens <==> StartsBlock(insts, |p.outputs|)
    requires opens ==> past == Prime(insts[|p.outputs|], env)
    requires !opens ==> past == p.caches[|p.outputs| - 1]
    ensures Consistent(insts, Progress(doc, p.outputs + [out], p.caches + [past], p.primed + [opens],
                                       p.starts + [p.rng], rng),
                       cfg, special, env, decode, patience, origin)
  {
    var q := Progress(doc, p.outputs + [out], p.caches + [past], p.primed + [opens], p.starts + [p.rng], rng);
    assert CachesFollowBlocks(insts, q.caches, env) by {
      CachesStep(insts, p.caches, env, past);
    }
    assert PrimedAtBlocks(insts, q.primed) by {
      PrimedStep(insts, p.primed, opens);
    }
    assert AllSampled(insts, q, cfg, special, env, patience, origin) by {
      assert q.outputs[..|p.outputs|] == p.outputs && q.caches[..|p.outputs|] == p.caches;
      SampledStep(insts, p, cfg, special, env, patience, origin, q);
    }
    assert |q.outputs| == |q.caches| == |q.primed| == |q.starts| <= |insts|;
    assert Assemble(q.outputs, decode) == Ok(q.document);
  }

  /** One iteration of the driver for instance `i = |p.outputs|`: prime a
      new cached state when the paragraph index differs from `prev` (the
      previous instance's), otherwise reuse `cache`; generate the question;
      add its record. It fails exactly when `NextFailure` names a failure,
      and then with that failure; otherwise the state grows by this
      instance and stays consistent. */
  method Visit<P>(insts: seq<Instance>, cfg: Config, special: set<Token>, env: Collaborators<P>,
                  decode: Decoder, patience: nat, origin: nat, p: Progress<P>, prev: Option<nat>, cache: Option<P>)
    returns (r: Result<Progress<P>, RunError>)
    requires cfg.temperature > 0.0
    requires Consistent(insts, p, cfg, special, env, decode, patience, origin) && |p.outputs| < |insts|
    requires prev == (if |p.outputs| == 0 then None else Some(insts[|p.outputs| - 1].paraIndex))
    requires cache == (if |p.outputs| == 0 then None else Some(p.caches[|p.outputs| - 1]))
    ensures r.Err? <==> NextFailure(insts, p, cfg, special, env, decode, patience).Some?
    ensures r.Err? ==> NextFailure(insts, p, cfg, special, env, decode, patience) == Some(r.error)
    ensures r.Ok? ==> Consistent(insts, r.value, cfg, special, env, decode, patience, origin)
    ensures r.Ok? ==> |r.value.outputs| == |p.outputs| + 1 && r.value.outputs[..|p.outputs|] == p.outputs
  {
    var i := |p.outputs|;
    var inst := insts[i];
    var opens := prev != Some(inst.paraIndex);
    assert opens <==> StartsBlock(insts, i);
    var past: P;
    if opens {
      past := Prime(inst, env);
    } else {
      past := cache.value;
    }
    assert past == PastFor(insts, p.caches, env);
    var g := SampleSequence(inst, cfg, special, env, Some(past), p.rng, patience);
    if g.Failed? {
      return Err(SamplerFailed(g.reason));
    }
    var added := AddResult(p.document, i, g.output, decode);
    if added.Err? {
      return Err(AssemblerFailed(added.error));
    }
    AssembleSnoc(p.outputs, g.output, decode);
    ConsistentStep(insts, p, cfg, special, env, decode, patience, origin, g.output, past, opens, added.value, g.rng);
    r := Ok(Progress(added.value, p.outputs + [g.output], p.caches + [past], p.primed + [opens],
                     p.starts + [p.rng], g.rng));
    assert r.value.outputs[..i] == p.outputs;
  }

  /** Runs the generator over `insts` in order, from position `rng` of the
      random stream. A completed run has one output per instance, each the
      sampler's result for its instance from the cached state primed at the
      first instance of its block of equal paragraph indices, and its
      document is the assembly of the outputs. An aborted run stops at the
      first instance whose generation or record fails, with that failure,
      after a consistent prefix. */
  method Run<P>(insts: seq<Instance>, cfg: Config, special: set<Token>, env: Collaborators<P>,
                decode: Decoder, rng: nat, patience: nat) returns (r: RunResult<P>)
    requires cfg.temperature > 0.0
    ensures r.Completed? ==> |r.final.outputs| == |insts|
    ensures r.Completed? ==> Consistent(insts, r.final, cfg, special, env, decode, patience, rng)
    ensures r.Completed? ==> AllAnswered(insts, r.final.outputs, cfg, special)
    ensures r.Completed? && WellNumbered(insts) ==> GroupedAs(r.final.document, r.final.outputs, decode)
    ensures r.Aborted? ==> r.at == |r.partial.outputs| < |insts|
    ensures r.Aborted? ==> Consistent(insts, r.partial, cfg, special, env, decode, patience, rng)
    ensures r.Aborted? ==> NextFailure(insts, r.partial, cfg, special, env, decode, patience) == Some(r.error)
  {
    var progress: Progress<P> := Progress(EmptyDocument, [], [], [], [], rng);
    var prev: Option<nat> := None;
    var cache: Option<P> := None;
    for i := 0 to |insts|
      invariant |progress.outputs| == i
      invariant Consistent(insts, progress, cfg, special, env, decode, patience, rng)
      invariant prev == (if i == 0 then None else Some(insts[i - 1].paraIndex))
      invariant cache == (if i == 0 then None else Some(progress.caches[i - 1]))
    {
      var next := Visit(insts, cfg, special, env, decode, patience, rng, progress, prev, cache);
      if next.Err? {
        return Aborted(next.error, i, progress);
      }
      progress := next.value;
      prev := Some(insts[i].paraIndex);
      cache := Some(progress.caches[i]);
    }
    r := Completed(progress);
    SampledAnswered(insts, progress, cfg, special, env, patience, rng);
    if WellNumbered(insts) {
      WellNumberedByIndices(insts, progress.outputs);
      AssembleGroups(progress.outputs, decode);
    }
  }
}

=== FILE: sampling.dfy ===
/** Generation of one question: an autoregressive loop that feeds the
    instance's context to the language model, then repeatedly shapes the
    next-token scores, chooses a token and feeds it back, until a special
    token comes up or the length limit is reached. */
module Sampling {
  import opened Common
  import opened Scores
  import opened TopFiltering

  /** The generation options, fixed for the whole run. A `topK` or `topP`
      that is not positive switches that filter off. */
  datatype Config = Config(
    maxLength: int,
    minLength: int,
    temperature: real,
    topK: int,
    topP: real,
    noSample: bool)

  /** One language-model call's result: the scores for the token after the
      last input position, and the cached state extended by the input. */
  datatype Step<P> = Step(logits: seq<Score>, past: P)

  /** What the loop calls but this model does not define, with the cached
      state `P` left abstract:
      - `build`: the input builder, turning an instance into decoder input
        ids and token type ids (without the closing end marker);
      - `model`: the language model, given input ids, token type ids and the
        cached state (None when there is none);
      - `exp`: the exponential the softmax uses;
      - `multinomial`: the token that draw number `d` of the seeded random
        stream picks from a probability vector. */
  datatype Collaborators<!P> = Collaborators(
    build: Instance -> Segments,
    model: (seq<Token>, seq<Token>, Option<P>) -> Step<P>,
    exp: real -> real,
    multinomial: (seq<real>, nat) -> Token)

  datatype SampleError =
    | NoTokenType          // the builder produced no token type id to repeat
    | EmptyVocabulary      // the model returned no scores to choose from
    | ResamplingExhausted  // the resampling loop had not ended after `patience` draws

  /** A token choice and the position reached in the random stream. */
  datatype Choice = Picked(token: Token, rng: nat) | Exhausted

  /** The instance with its generated question, and the position reached in
      the random stream. */
  datatype Generation = Generated(output: Instance, rng: nat) | Failed(reason: SampleError)

  /** The probability vector the loop chooses from: scores divided by the
      temperature, filtered with the configured top-k and top-p (threshold
      left at negative infinity), then normalised. A token whose score is
      negative infinity, or that the filter removes, gets probability zero. */
  function NextDistribution<P>(cfg: Config, env: Collaborators<P>, logits: seq<Score>): (probs: seq<real>)
    requires cfg.temperature > 0.0
    ensures |probs| == |logits|
    ensures forall j :: 0 <= j < |logits| && logits[j] == NegInf ==> probs[j] == 0.0
    ensures forall j :: 0 <= j < |logits| && TopKRemoves(Scale(logits, cfg.temperature), ClampK(cfg.topK, |logits|), j) ==>
      probs[j] == 0.0
    ensures forall j :: 0 <= j < |logits| && Filter(Scale(logits, cfg.temperature), cfg.topK, cfg.topP, NegInf, env.exp)[j] == NegInf ==>
      probs[j] == 0.0
  {
    var filtered := Filter(Scale(logits, cfg.temperature), cfg.topK, cfg.topP, NegInf, env.exp);
    SoftmaxRemoved(filtered, env.exp);
    Softmax(filtered, env.exp)
  }

  /** With a positive exponential and at least one finite score, the loop
      chooses from a genuine distribution: no probability is negative and
      they sum to one. */
  lemma NextDistributionIsDistribution<P>(cfg: Config, env: Collaborators<P>, logits: seq<Score>)
    requires cfg.temperature > 0.0
    requires forall y :: env.exp(y) > 0.0
    requires exists j :: 0 <= j < |logits| && logits[j] != NegInf
    ensures forall j :: 0 <= j < |logits| ==> NextDistribution(cfg, env, logits)[j] >= 0.0
    ensures Sum(NextDistribution(cfg, env, logits)) == 1.0
  {
    var scaled := Scale(logits, cfg.temperature);
    var filtered := Filter(scaled, cfg.topK, cfg.topP, NegInf, env.exp);
    FilterKeepsBest(scaled, cfg.topK, cfg.topP, env.exp);
    var b :| IsMaxAt(scaled, b) && filtered[b] == scaled[b];
    assert filtered[b] != NegInf by {
      var j :| 0 <= j < |logits| && logits[j] != NegInf;
      assert LessEq(scaled[j], scaled[b]);
    }
    SoftmaxSumsToOne(filtered, env.exp);
    SoftmaxNonNegative(filtered, env.exp);
  }

  /** Greedy choice: the first position of a largest probability. */
  function Argmax(probs: seq<real>): (r: nat)
    requires |probs| > 0
    ensures r < |probs|
    ensures forall j :: 0 <= j < |probs| ==> probs[j] <= probs[r]
    ensures forall j :: 0 <= j < r ==> probs[j] < probs[r]
  {
    if |probs| == 1 then 0
    else
      var m := Argmax(probs[..|probs| - 1]);
      if probs[|probs| - 1] > probs[m] then |probs| - 1 else m
  }

  /** The resampling loop: draw again until a non-special token comes up.
      The source loops without bound; here it gives up after `patience`
      draws. A pick is the first non-special draw from `rng` on. */
  function Resample(probs: seq<real>, special: set<Token>, multinomial: (seq<real>, nat) -> Token,
                    rng: nat, patience: nat): (c: Choice)
    ensures c.Picked? ==> rng < c.rng <= rng + patience
    ensures c.Picked? ==> c.token !in special && c.token == multinomial(probs, c.rng - 1)
    ensures c.Picked? ==> forall d :: rng <= d < c.rng - 1 ==> multinomial(probs, d) in special
    ensures c.Exhausted? ==> forall d :: rng <= d < rng + patience ==> multinomial(probs, d) in special
    decreases patience
  {
    if patience == 0 then Exhausted
    else
      var t := multinomial(probs, rng);
      if t !in special then Picked(t, rng + 1)
      else Resample(probs, special, multinomial, rng + 1, patience - 1)
  }

  /** The token picked before the guard: greedy or the next draw. Greedy
      takes a largest probability and consumes no draw; sampling consumes
      exactly one. */
  function FirstPick<P>(cfg: Config, env: Collaborators<P>, probs: seq<real>, rng: nat): (c: Choice)
    requires |probs| > 0
    ensures c.Picked?
    ensures cfg.noSample ==> c.rng == rng && c.token < |probs|
    ensures cfg.noSample ==> forall j :: 0 <= j < |probs| ==> probs[j] <= probs[c.token]
    ensures !cfg.noSample ==> c == Picked(env.multinomial(probs, rng), rng + 1)
  {
    if cfg.noSample then Picked(Argmax(probs), rng)
    else Picked(env.multinomial(probs, rng), rng + 1)
  }

  /** The choice at loop step `i`: the first pick stands unless it is a
      special token while fewer than `minLength` tokens exist; then the
      token is redrawn (always by sampling, also in greedy mode). */
  function Choose<P>(cfg: Config, special: set<Token>, env: Collaborators<P>, probs: seq<real>,
                     i: nat, rng: nat, patience: nat): (c: Choice)
    requires |probs| > 0
    ensures c.Picked? ==> c.rng >= rng
    ensures c.Picked? && i < cfg.minLength ==> c.token !in special
    ensures c.Exhausted? ==> i < cfg.minLength && FirstPick(cfg, env, probs, rng).token in special
    ensures i >= cfg.minLength || FirstPick(cfg, env, probs, rng).token !in special ==>
      c == FirstPick(cfg, env, probs, rng)
    ensures i < cfg.minLength && FirstPick(cfg, env, probs, rng).token in special ==>
      c == Resample(probs, special, env.multinomial, FirstPick(cfg, env, probs, rng).rng, patience)
  {
    var first := FirstPick(cfg, env, probs, rng);
    if i < cfg.minLength && first.token in special then
      Resample(probs, special, env.multinomial, first.rng, patience)
    else first
  }

  /** The instance as the sampler hands it to the input builder: no question
      yet and, since the cached state already holds the paragraph, no
      paragraph. */
  function Blanked(inst: Instance): Instance
  {
    inst.(question := [], paragraph := [])
  }

  /** The number of iterations of `range(n)`. */
  function Bound(n: int): nat
  {
    if n > 0 then n else 0
  }

  /** What stays fixed during the generation of one question: the options,
      the special tokens, the collaborators, the token type repeated for
      every generated token, the resampling patience, and the map from the
      model's scores to the probabilities the tokens are chosen from (in
      `sample_sequence`, `NextDistribution`). */
  datatype Sampler<!P> = Sampler(cfg: Config, special: set<Token>, env: Collaborators<P>,
                                 tokenType: Token, patience: nat, distribution: seq<Score> -> seq<real>)

  /** The distribution gives one probability per vocabulary entry. */
  ghost predicate Sound<P>(s: Sampler<P>)
  {
    forall logits :: |s.distribution(logits)| == |logits|
  }

  /** The loop's state at the top of an iteration: the scores for the next
      token, the cached state, the question so far (one token per finished
      iteration) and the position reached in the random stream. */
  datatype Cursor<P> = Cursor(logits: seq<Score>, cache: P, question: seq<Token>, draw: nat)

  /** How the generation loop ends: with the question and the position
      reached in the random stream, or with the reason it failed. */
  datatype Outcome = Finished(question: seq<Token>, rng: nat) | Stopped(reason: SampleError)

  /** How one iteration ends: in the state for the next one, or with the
      loop's outcome. */
  datatype Move<P> = Next(cursor: Cursor<P>) | Halt(outcome: Outcome)

  /** The choice iteration `|c.question|` makes from the state `c`. */
  function ChoiceAt<P>(s: Sampler<P>, c: Cursor<P>): Choice
    requires Sound(s) && |c.logits| > 0
  {
    Choose(s.cfg, s.special, s.env, s.distribution(c.logits), |c.question|, c.draw, s.patience)
  }

  /** One iteration of the generation loop, at step `|c.question|`. It fails
      on an empty score vector and when resampling runs out; it stops, with
      the question unchanged, on a special token, which the guard lets
      through only once `minLength` tokens exist; otherwise it appends one
      non-special token and feeds it to the model. */
  function Advance<P>(s: Sampler<P>, c: Cursor<P>): (m: Move<P>)
    requires Sound(s)
    ensures m == Halt(Stopped(EmptyVocabulary)) <==> |c.logits| == 0
    ensures m == Halt(Stopped(ResamplingExhausted)) <==> |c.logits| > 0 && ChoiceAt(s, c).Exhausted?
    ensures m == Halt(Stopped(ResamplingExhausted)) ==> |c.question| < s.cfg.minLength
    ensures m != Halt(Stopped(NoTokenType))
    ensures m.Halt? && m.outcome.Finished? ==>
      m.outcome.question == c.question && m.outcome.rng >= c.draw && |c.question| >= s.cfg.minLength
    ensures |c.logits| > 0 && ChoiceAt(s, c).Picked? ==> (m.Halt? <==> ChoiceAt(s, c).token in s.special)
    ensures m.Next? ==> m.cursor.question == c.question + [ChoiceAt(s, c).token] && m.cursor.draw == ChoiceAt(s, c).rng
    ensures m.Next? ==>
      && |m.cursor.question| == |c.question| + 1
      && m.cursor.question[..|c.question|] == c.question
      && m.cursor.question[|c.question|] !in s.special
      && m.cursor.draw >= c.draw
  {
    if |c.logits| == 0 then Halt(Stopped(EmptyVocabulary))
    else
      var choice := ChoiceAt(s, c);
      if choice.Exhausted? then Halt(Stopped(ResamplingExhausted))
      else if choice.token in s.special then Halt(Finished(c.question, choice.rng))
      else
        var step := s.env.model([choice.token], [s.tokenType], Some(c.cache));
        Next(Cursor(step.logits, step.past, c.question + [choice.token], choice.rng))
  }

  /** The generation loop from state `c` on: iterations run while the
      question is shorter than `maxLength`. */
  function Generate<P>(s: Sampler<P>, c: Cursor<P>): Outcome
    requires Sound(s)
    decreases Bound(s.cfg.maxLength) - |c.question|, 1
  {
    if |c.question| >= Bound(s.cfg.maxLength) then Finished(c.question, c.draw)
    else Iterate(s, c)
  }

  /** One iteration below the length bound, then the rest of the loop. */
  function Iterate<P>(s: Sampler<P>, c: Cursor<P>): Outcome
    requires Sound(s)
    requires |c.question| < Bound(s.cfg.maxLength)
    decreases Bound(s.cfg.maxLength) - |c.question|, 0
  {
    match Advance(s, c)
    case Halt(outcome) => outcome
    case Next(c') => Generate(s, c')
  }

  /** One iteration of `Generate` before the length bound: an empty score
      vector fails; otherwise the choice `ChoiceAt` makes decides the
      outcome or the next state. */
  lemma GenerateStep<P>(s: Sampler<P>, c: Cursor<P>)
    requires Sound(s)
    requires |c.question| < Bound(s.cfg.maxLength)
    ensures |c.logits| == 0 ==> Generate(s, c) == Stopped(EmptyVocabulary)
    ensures |c.logits| > 0 && ChoiceAt(s, c).Exhausted? ==> Generate(s, c) == Stopped(ResamplingExhausted)
    ensures |c.logits| > 0 && ChoiceAt(s, c).Picked? && ChoiceAt(s, c).token in s.special ==>
      Generate(s, c) == Finished(c.question, ChoiceAt(s, c).rng)
    ensures |c.logits| > 0 && ChoiceAt(s, c).Picked? && ChoiceAt(s, c).token !in s.special ==>
      var step := s.env.model([ChoiceAt(s, c).token], [s.tokenType], Some(c.cache));
      Generate(s, c) == Generate(s, Cursor(step.logits, step.past, c.question + [ChoiceAt(s, c).token], ChoiceAt(s, c).rng))
  {
    assert Generate(s, c) == Iterate(s, c);
  }

  /** The state after `n` more iterations, when the loop gets that far. */
  function Reach<P>(s: Sampler<P>, c: Cursor<P>, n: nat): Option<Cursor<P>>
    requires Sound(s)
    decreases n
  {
    if n == 0 then Some(c)
    else if |c.question| >= Bound(s.cfg.maxLength) then None
    else
      match Advance(s, c)
      case Halt(_) => None
      case Next(c') => Reach(s, c', n - 1)
  }

  /** Iteration `n` from `c` on is reached, runs, and fails with `e`. */
  predicate StopsAt<P>(s: Sampler<P>, c: Cursor<P>, n: nat, e: SampleError)
    requires Sound(s)
  {
    var r := Reach(s, c, n);
    r.Some? && |r.value.question| < Bound(s.cfg.maxLength) && Advance(s, r.value) == Halt(Stopped(e))
  }

  /** A finished loop extends the question it started from with non-special
      tokens, respects the length bound, reaches `minLength` tokens unless
      `maxLength` is smaller, and only moves forward in the random stream.
      Resampling can only run out before `minLength` tokens exist. */
  lemma {:induction false} GenerateBounds<P>(s: Sampler<P>, c: Cursor<P>)
    requires Sound(s)
    requires |c.question| <= Bound(s.cfg.maxLength)
    requires forall t :: t in c.question ==> t !in s.special
    ensures var o := Generate(s, c);
      o.Finished? ==>
        && |c.question| <= |o.question| <= Bound(s.cfg.maxLength)
        && o.question[..|c.question|] == c.question
        && (forall t :: t in o.question ==> t !in s.special)
        && (|o.question| >= s.cfg.minLength || |o.question| >= s.cfg.maxLength)
        && o.rng >= c.draw
    ensures Generate(s, c) == Stopped(ResamplingExhausted) ==> |c.question| < s.cfg.minLength
    ensures Generate(s, c) == Stopped(EmptyVocabulary) ==> |c.question| < Bound(s.cfg.maxLength)
    ensures Generate(s, c) != Stopped(NoTokenType)
    decreases Bound(s.cfg.maxLength) - |c.question|
  {
    if |c.question| < Bound(s.cfg.maxLength) {
      assert Generate(s, c) == Iterate(s, c);
      var m := Advance(s, c);
      if m.Next? {
        var c' := m.cursor;
        assert forall t :: t in c'.question ==> t !in s.special by {
          assert c'.question == c.question + [c'.question[|c.question|]];
        }
        GenerateBounds(s, c');
        var o := Generate(s, c');
        if o.Finished? {
          assert o.question[..|c.question|] == o.question[..|c'.question|][..|c.question|];
        }
      }
    }
  }

  /** If the loop fails, some iteration it reaches fails for that reason. */
  lemma {:induction false} StopReached<P>(s: Sampler<P>, c: Cursor<P>, e: SampleError) returns (n: nat)
    requires Sound(s)
    requires Generate(s, c) == Stopped(e)
    ensures StopsAt(s, c, n, e)
    decreases Bound(s.cfg.maxLength) - |c.question|
  {
    assert |c.question| < Bound(s.cfg.maxLength);
    assert Generate(s, c) == Iterate(s, c);
    var m := Advance(s, c);
    if m.Halt? {
      n := 0;
    } else {
      var k := StopReached(s, m.cursor, e);
      n := k + 1;
    }
  }

  /** If some iteration the loop reaches fails, the loop fails for that
      reason. */
  lemma {:induction false} StopIsOutcome<P>(s: Sampler<P>, c: Cursor<P>, n: nat, e: SampleError)
    requires Sound(s)
    requires StopsAt(s, c, n, e)
    ensures Generate(s, c) == Stopped(e)
    decreases n
  {
    assert Generate(s, c) == Iterate(s, c);
    if n > 0 {
      StopIsOutcome(s, Advance(s, c).cursor, n - 1, e);
    }
  }

  /** What `sample_sequence` computes for `inst` from the cached state
      `past`: the builder's input for the instance without question and
      paragraph is fed, minus its first position, to the model; the loop
      then runs from an empty question, repeating the input's last token
      type. */
  function Sample<P>(inst: Instance, cfg: Config, special: set<Token>, env: Collaborators<P>,
                     past: Option<P>, rng: nat, patience: nat): Generation
    requires cfg.temperature > 0.0
  {
    var segments := env.build(Blanked(inst));
    if |segments.tokenTypeIds| == 0 then Failed(NoTokenType)
    else
      var step := env.model(Tail(segments.inputIds), Tail(segments.tokenTypeIds), past);
      Deliver(inst, Generate(Launch(cfg, special, env, segments, patience), Cursor(step.logits, step.past, [], rng)))
  }

  /** The instance with the loop's question, or the loop's failure. */
  function Deliver(inst: Instance, o: Outcome): Generation
  {
    match o
    case Finished(question, draw) => Generated(inst.(question := question), draw)
    case Stopped(reason) => Failed(reason)
  }

  /** The loop's fixed parameters for a builder output with token types:
      the last token type is repeated, and tokens are chosen from
      `NextDistribution`. */
  function Launch<P>(cfg: Config, special: set<Token>, env: Collaborators<P>, segments: Segments,
                     patience: nat): (s: Sampler<P>)
    requires cfg.temperature > 0.0 && |segments.tokenTypeIds| > 0
    ensures Sound(s)
  {
    Sampler(cfg, special, env, segments.tokenTypeIds[|segments.tokenTypeIds| - 1], patience,
            logits => NextDistribution(cfg, env, logits))
  }

  /** The sampler hands back the instance with only its question replaced.
      The question has at most `maxLength` tokens, none of them special, and
      at least `minLength` unless `maxLength` is smaller; the random stream
      only moves forward. It fails for a missing token type exactly when the
      builder gives no token type ids, runs out of resampling only when
      `minLength` is positive, and meets an empty score vector only when
      `maxLength` is. */
  lemma SampleBounds<P>(inst: Instance, cfg: Config, special: set<Token>, env: Collaborators<P>,
                        past: Option<P>, rng: nat, patience: nat)
    requires cfg.temperature > 0.0
    ensures var g := Sample(inst, cfg, special, env, past, rng, patience);
      && (g.Generated? ==> g.output == inst.(question := g.output.question))
      && (g.Generated? ==> |g.output.question| <= Bound(cfg.maxLength))
      && (g.Generated? ==> |g.output.question| >= cfg.minLength || |g.output.question| >= cfg.maxLength)
      && (g.Generated? ==> forall t :: t in g.output.question ==> t !in special)
      && (g.Generated? ==> g.rng >= rng)
      && (g == Failed(NoTokenType) <==> |env.build(Blanked(inst)).tokenTypeIds| == 0)
      && (g == Failed(ResamplingExhausted) ==> cfg.minLength > 0)
      && (g == Failed(EmptyVocabulary) ==> cfg.maxLength > 0)
  {
    var segments := env.build(Blanked(inst));
    if |segments.tokenTypeIds| > 0 {
      var step := env.model(Tail(segments.inputIds), Tail(segments.tokenTypeIds), past);
      GenerateBounds(Launch(cfg, special, env, segments, patience), Cursor(step.logits, step.past, [], rng));
    }
  }

  /** The body of the generation loop at step `|question|`: shape the
      scores into probabilities, choose a token, and either stop (an empty
      score vector, resampling run out, a special token) or feed the token
      to the model. It makes the move `Advance` describes. */
  method NextMove<P>(cfg: Config, special: set<Token>, env: Collaborators<P>, tokenType: Token, patience: nat,
                 ghost segments: Segments, logits: seq<Score>, cache: P, question: seq<Token>, draw: nat)
    returns (m: Move<P>)
    requires cfg.temperature > 0.0 && |segments.tokenTypeIds| > 0
    requires tokenType == segments.tokenTypeIds[|segments.tokenTypeIds| - 1]
    ensures m == Advance(Launch(cfg, special, env, segments, patience), Cursor(logits, cache, question, draw))
  {
    if |logits| == 0 {
      return Halt(Stopped(EmptyVocabulary));
    }
    ghost var s := Launch(cfg, special, env, segments, patience);
    ghost var here := Cursor(logits, cache, question, draw);
    var probs := NextDistribution(cfg, env, logits);
    var choice := Choose(cfg, special, env, probs, |question|, draw, patience);
    assert choice == ChoiceAt(s, here) by { assert probs == s.distribution(logits); }
    if choice.Exhausted? {
      return Halt(Stopped(ResamplingExhausted));
    }
    if choice.token in special {
      return Halt(Finished(question, choice.rng));
    }
    var next := env.model([choice.token], [tokenType], Some(cache));
    m := Next(Cursor(next.logits, next.past, question + [choice.token], choice.rng));
  }

  /** Generates one question for `inst` from the cached state `past`, by the
      loop of `sample_sequence`. The result is `Sample`'s: the instance with
      only its question replaced, or the reason generation failed. */
  method SampleSequence<P>(inst: Instance, cfg: Config, special: set<Token>, env: Collaborators<P>,
                           past: Option<P>, rng: nat, patience: nat) returns (g: Generation)
    requires cfg.temperature > 0.0
    ensures g == Sample(inst, cfg, special, env, past, rng, patience)
  {
    var segments := env.build(Blanked(inst));
    if |segments.tokenTypeIds| == 0 {
      return Failed(NoTokenType);
    }
    var step := env.model(Tail(segments.inputIds), Tail(segments.tokenTypeIds), past);
    var tokenType := segments.tokenTypeIds[|segments.tokenTypeIds| - 1];
    ghost var s := Launch(cfg, special, env, segments, patience);
    ghost var start := Cursor(step.logits, step.past, [], rng);
    assert Sample(inst, cfg, special, env, past, rng, patience) == Deliver(inst, Generate(s, start));
    var logits, cache := step.logits, step.past;
    var question: seq<Token> := [];
    var draw := rng;
    var i := 0;
    while i < Bound(cfg.maxLength)
      invariant 0 <= i <= Bound(cfg.maxLength)
      invariant |question| == i
      invariant Generate(s, Cursor(logits, cache, question, draw)) == Generate(s, start)
    {
      var m := NextMove(cfg, special, env, tokenType, patience, segments, logits, cache, question, draw);
      assert Generate(s, Cursor(logits, cache, question, draw)) == Iterate(s, Cursor(logits, cache, question, draw));
      if m.Halt? {
        if m.outcome.Stopped? {
          return Failed(m.outcome.reason);
        }
        draw := m.outcome.rng;
        break;
      }
      logits, cache, question, draw := m.cursor.logits, m.cursor.cache, m.cursor.question, m.cursor.draw;
      i := i + 1;
    }
    g := Generated(inst.(question := question), draw);
  }
}

=== FILE: scores.dfy ===
/** Next-token scores. A score is a finite real or negative infinity, the
    value the filters write over every entry they remove. */
module Scores {

  datatype Score = Finite(r: real) | NegInf

  /** The `<` of the score vector: negative infinity is below every finite
      score and not below itself. */
  predicate Less(a: Score, b: Score)
  {
    match (a, b)
    case (NegInf, Finite(_)) => true
    case (Finite(x), Finite(y)) => x < y
    case _ => false
  }

  predicate LessEq(a: Score, b: Score)
  {
    !Less(b, a)
  }

  lemma LessTransitive(a: Score, b: Score, c: Score)
    ensures Less(a, b) && LessEq(b, c) ==> Less(a, c)
    ensures LessEq(a, b) && Less(b, c) ==> Less(a, c)
    ensures LessEq(a, b) && LessEq(b, c) ==> LessEq(a, c)
  {
  }

  /** Number of entries of `s` strictly above `x`. */
  function CountAbove(s: seq<Score>, x: Score): nat
  {
    if |s| == 0 then 0
    else CountAbove(s[..|s| - 1], x) + (if Less(x, s[|s| - 1]) then 1 else 0)
  }

  /** Entry `i` holds a largest score of `s`. */
  predicate IsMaxAt(s: seq<Score>, i: int)
  {
    0 <= i < |s| && forall j :: 0 <= j < |s| ==> LessEq(s[j], s[i])
  }

  /** `r` is `s` with some entries replaced by negative infinity. */
  predicate OnlyFilters(s: seq<Score>, r: seq<Score>)
  {
    |r| == |s| && forall i :: 0 <= i < |s| ==> r[i] == s[i] || r[i] == NegInf
  }

  lemma {:induction false} CountAboveNone(s: seq<Score>, x: Score)
    requires forall j :: 0 <= j < |s| ==> LessEq(s[j], x)
    ensures CountAbove(s, x) == 0
  {
    if |s| > 0 {
      CountAboveNone(s[..|s| - 1], x);
    }
  }

  /** Lowering entries never raises the number of entries above `x`. */
  lemma {:induction false} CountAboveMonotone(s: seq<Score>, r: seq<Score>, x: Score)
    requires |r| == |s|
    requires forall j :: 0 <= j < |s| ==> LessEq(r[j], s[j])
    ensures CountAbove(r, x) <= CountAbove(s, x)
  {
    if |s| > 0 {
      CountAboveMonotone(s[..|s| - 1], r[..|r| - 1], x);
      LessTransitive(x, r[|r| - 1], s[|s| - 1]);
    }
  }

  /** Division of every finite score by the sampling temperature. */
  function Scale(s: seq<Score>, temperature: real): (r: seq<Score>)
    requires temperature > 0.0
    ensures |r| == |s|
    ensures forall i :: 0 <= i < |s| ==> (r[i] == NegInf <==> s[i] == NegInf)
    ensures forall i, j :: 0 <= i < |s| && 0 <= j < |s| ==> (Less(r[i], r[j]) <==> Less(s[i], s[j]))
  {
    var r := seq(|s|, i requires 0 <= i < |s| =>
      match s[i]
      case Finite(x) => Finite(x / temperature)
      case NegInf => NegInf);
    forall i, j | 0 <= i < |s| && 0 <= j < |s|
      ensures Less(r[i], r[j]) <==> Less(s[i], s[j])
    {
      if s[i].Finite? && s[j].Finite? {
        DivisionKeepsOrder(s[i].r, s[j].r, temperature);
      }
    }
    r
  }

  lemma DivisionKeepsOrder(x: real, y: real, t: real)
    requires t > 0.0
    ensures x < y <==> x / t < y / t
  {
    assert x == (x / t) * t;
    assert y == (y / t) * t;
  }
}

=== FILE: text.dfy ===
/** The two string operations the assembler performs: `%d` formatting of
    the question counter and the search for the answer in the paragraph. */
module Text {

  function DigitChar(d: nat): char
    requires d < 10
  {
    (('0' as int) + d) as char
  }

  function DigitValue(c: char): nat
  {
    if '0' <= c <= '9' then (c as int) - ('0' as int) else 0
  }

  /** `'%d' % n` for a natural number: its decimal digits, most significant
      first, without leading zeros. */
  function NatToString(n: nat): (r: string)
    ensures |r| > 0
    ensures forall i :: 0 <= i < |r| ==> '0' <= r[i] <= '9'
    ensures |r| > 1 ==> r[0] != '0'
    decreases n
  {
    if n < 10 then [DigitChar(n)] else NatToString(n / 10) + [DigitChar(n % 10)]
  }

  /** Reads a string of decimal digits back as a number. */
  function ParseDecimal(s: string): nat
  {
    if |s| == 0 then 0 else ParseDecimal(s[..|s| - 1]) * 10 + DigitValue(s[|s| - 1])
  }

  /** Formatting loses nothing: the digits read back as the number. */
  lemma {:induction false} DecimalRoundTrip(n: nat)
    ensures ParseDecimal(NatToString(n)) == n
    decreases n
  {
    var r := NatToString(n);
    if n >= 10 {
      DecimalRoundTrip(n / 10);
      assert r[..|r| - 1] == NatToString(n / 10);
    }
  }

  /** Different numbers format differently. */
  lemma NatToStringInjective(m: nat, n: nat)
    requires m != n
    ensures NatToString(m) != NatToString(n)
  {
    DecimalRoundTrip(m);
    DecimalRoundTrip(n);
  }

  /** `pat` occurs in `text` starting at position `k`. */
  predicate OccursAt(text: string, pat: string, k: int)
  {
    0 <= k && k + |pat| <= |text| && text[k..k + |pat|] == pat
  }

  /** The first occurrence of `pat` in `text` at or after `from`, or -1. */
  function FindFrom(text: string, pat: string, from: nat): (r: int)
    ensures r == -1 || (from <= r && OccursAt(text, pat, r))
    ensures forall k :: from <= k && (r == -1 || k < r) ==> !OccursAt(text, pat, k)
    decreases |text| - from
  {
    if from + |pat| > |text| then -1
    else if text[from..from + |pat|] == pat then from
    else FindFrom(text, pat, from + 1)
  }

  /** `str.find`: the position of the first occurrence of `pat` in `text`,
      or -1 when it occurs nowhere. The empty pattern occurs at 0. */
  function Find(text: string, pat: string): (r: int)
    ensures r >= 0 ==> OccursAt(text, pat, r) && forall k :: 0 <= k < r ==> !OccursAt(text, pat, k)
    ensures r < 0 <==> forall k :: !OccursAt(text, pat, k)
    ensures r >= -1
  {
    FindFrom(text, pat, 0)
  }
}

=== FILE: top_filtering.dfy ===
/** Top-k, nucleus (top-p) and threshold filtering of one next-token score
    vector. Each step replaces the entries it removes by negative infinity
    and leaves every other entry as it was; the steps run in that order, each
    on the output of the one before. */
module TopFiltering {
  import opened Scores
  import opened Ranking

  // ---------------------------------------------------------------- top-k

  /** Top-k: every entry strictly below the `k`-th best score becomes
      negative infinity. `order` is the index output of a descending sort of
      `s`; the result does not depend on how it orders ties. */
  function TopK(s: seq<Score>, k: nat, order: seq<nat>): (r: seq<Score>)
    requires 0 < k <= |s|
    requires IsDescendingOrder(s, order)
    ensures |r| == |s|
    ensures forall i :: 0 <= i < |s| ==>
      r[i] == if CountAbove(s, s[i]) >= k then NegInf else s[i]
  {
    KthBest(s, order, k);
    var kth := s[order[k - 1]];
    seq(|s|, i requires 0 <= i < |s| => if Less(s[i], kth) then NegInf else s[i])
  }

  /** The indices in the first `k` places of an order. */
  function Leaders(order: seq<nat>, k: nat): set<nat>
    requires k <= |order|
  {
    set j | 0 <= j < k :: order[j]
  }

  lemma {:induction false} LeadersSize(order: seq<nat>, k: nat)
    requires k <= |order|
    requires forall a, b :: 0 <= a < b < |order| ==> order[a] != order[b]
    ensures |Leaders(order, k)| == k
  {
    if k > 0 {
      LeadersSize(order, k - 1);
      assert Leaders(order, k) == Leaders(order, k - 1) + {order[k - 1]};
      assert order[k - 1] !in Leaders(order, k - 1);
    }
  }

  /** The entries unchanged by a filter step. */
  function Kept(s: seq<Score>, r: seq<Score>): set<nat>
    requires |r| == |s|
  {
    set i: nat | i < |s| && r[i] == s[i]
  }

  /** Top-k keeps the `k` best-ranked entries, so at least `k` entries
      survive (more when there are ties at the `k`-th score). */
  lemma TopKKeepsLeaders(s: seq<Score>, k: nat, order: seq<nat>)
    requires 0 < k <= |s|
    requires IsDescendingOrder(s, order)
    ensures forall j :: 0 <= j < k ==> TopK(s, k, order)[order[j]] == s[order[j]]
    ensures |Kept(s, TopK(s, k, order))| >= k
  {
    var r := TopK(s, k, order);
    KthBest(s, order, k);
    forall j | 0 <= j < k ensures r[order[j]] == s[order[j]] {
      assert LessEq(s[order[k - 1]], s[order[j]]);
      LessTransitive(s[order[j]], s[order[k - 1]], s[order[j]]);
    }
    OrderDistinct(s, order);
    LeadersSize(order, k);
    var leaders := Leaders(order, k);
    var kept := Kept(s, r);
    assert leaders <= kept;
    assert kept == leaders + (kept - leaders);
  }

  /** Top-k never removes a largest score. */
  lemma TopKKeepsMaxima(s: seq<Score>, k: nat, order: seq<nat>, i: nat)
    requires 0 < k <= |s|
    requires IsDescendingOrder(s, order)
    requires IsMaxAt(s, i)
    ensures TopK(s, k, order)[i] == s[i]
  {
    CountAboveNone(s, s[i]);
  }

  /** A second top-k with the same `k` changes nothing. */
  lemma TopKIdempotent(s: seq<Score>, k: nat, order: seq<nat>, order2: seq<nat>)
    requires 0 < k <= |s|
    requires IsDescendingOrder(s, order)
    requires IsDescendingOrder(TopK(s, k, order), order2)
    ensures TopK(TopK(s, k, order), k, order2) == TopK(s, k, order)
  {
    var r := TopK(s, k, order);
    var r2 := TopK(r, k, order2);
    forall j | 0 <= j < |s| ensures LessEq(r[j], s[j]) {
    }
    forall i | 0 <= i < |s| ensures r2[i] == r[i] {
      CountAboveMonotone(s, r, r[i]);
    }
  }

  // ---------------------------------------------------------------- top-p

  function Sum(xs: seq<real>): real
  {
    if |xs| == 0 then 0.0 else Sum(xs[..|xs| - 1]) + xs[|xs| - 1]
  }

  /** Cumulative probability of sorted positions 0 through `j`. */
  function Cum(probs: seq<real>, j: nat): real
    requires j < |probs|
  {
    Sum(probs[..j + 1])
  }

  /** The shifted removal mask: sorted position `j` goes when the mass of the
      positions before it already exceeds `p`; position 0 always stays. */
  predicate SortedRemoved(probs: seq<real>, p: real, j: nat)
    requires j < |probs|
  {
    j > 0 && Cum(probs, j - 1) > p
  }

  /** The mask mapped back to vocabulary indices. */
  function RemovedIndices(order: seq<nat>, probs: seq<real>, p: real): set<nat>
    requires |probs| == |order|
  {
    set j | 0 <= j < |order| && SortedRemoved(probs, p, j) :: order[j]
  }

  lemma RemovedIndicesExact(s: seq<Score>, order: seq<nat>, probs: seq<real>, p: real)
    requires IsDescendingOrder(s, order)
    requires |probs| == |s|
    ensures forall j :: 0 <= j < |s| ==>
      (order[j] in RemovedIndices(order, probs, p) <==> SortedRemoved(probs, p, j))
  {
    OrderDistinct(s, order);
  }

  /** Top-p (nucleus): `probs` are the probabilities of the scores in the
      sorted order `order`; the entry at sorted position `j` becomes negative
      infinity exactly when `SortedRemoved` holds at `j`. The best-ranked
      entry, a largest score, is never removed. */
  function TopP(s: seq<Score>, p: real, order: seq<nat>, probs: seq<real>): (r: seq<Score>)
    requires IsDescendingOrder(s, order)
    requires |probs| == |s|
    ensures |r| == |s|
    ensures forall j :: 0 <= j < |s| ==>
      r[order[j]] == if SortedRemoved(probs, p, j) then NegInf else s[order[j]]
    ensures |s| > 0 ==> r[order[0]] == s[order[0]] && IsMaxAt(s, order[0])
  {
    var removed := RemovedIndices(order, probs, p);
    RemovedIndicesExact(s, order, probs, p);
    var r := seq(|s|, i requires 0 <= i < |s| => if i in removed then NegInf else s[i]);
    if |s| > 0 then FirstIsMax(s, order); r else r
  }

  lemma {:induction false} CumMonotone(probs: seq<real>, a: nat, b: nat)
    requires forall j :: 0 <= j < |probs| ==> probs[j] >= 0.0
    requires a <= b < |probs|
    ensures Cum(probs, a) <= Cum(probs, b)
  {
    if a < b {
      CumMonotone(probs, a, b - 1);
      assert probs[..b + 1][..b] == probs[..b];
    }
  }

  /** With non-negative probabilities, if the mass first exceeds `p` at
      sorted position `m`, top-p keeps exactly positions 0 through `m`: the
      smallest best-first prefix whose mass exceeds `p`. */
  lemma NucleusIsSmallestPrefix(s: seq<Score>, p: real, order: seq<nat>, probs: seq<real>, m: nat)
    requires IsDescendingOrder(s, order)
    requires |probs| == |s|
    requires forall j :: 0 <= j < |probs| ==> probs[j] >= 0.0
    requires m < |s| && Cum(probs, m) > p
    requires forall j :: 0 <= j < m ==> Cum(probs, j) <= p
    ensures forall j :: 0 <= j <= m ==> TopP(s, p, order, probs)[order[j]] == s[order[j]]
    ensures forall j :: m < j < |s| ==> TopP(s, p, order, probs)[order[j]] == NegInf
  {
    forall j | m < j < |s| ensures SortedRemoved(probs, p, j) {
      CumMonotone(probs, m, j - 1);
    }
  }

  /** Some prefix crosses `p` as soon as any cumulative value does. */
  lemma {:induction false} FirstCrossing(probs: seq<real>, p: real, j: nat)
    requires j < |probs| && Cum(probs, j) > p
    ensures exists m :: 0 <= m <= j && Cum(probs, m) > p && forall i :: 0 <= i < m ==> Cum(probs, i) <= p
    decreases j
  {
    if exists i :: 0 <= i < j && Cum(probs, i) > p {
      var i :| 0 <= i < j && Cum(probs, i) > p;
      FirstCrossing(probs, p, i);
    }
  }

  /** `r` keeps sorted positions 0 through `m` of `s` and removes the rest. */
  predicate PrefixKept(s: seq<Score>, r: seq<Score>, order: seq<nat>, m: nat)
    requires |r| == |s| && InBounds(order, |s|)
  {
    && (forall i :: 0 <= i <= m && i < |order| ==> r[order[i]] == s[order[i]])
    && (forall i :: m < i < |order| ==> r[order[i]] == NegInf)
  }

  /** As the doc comment promises: whenever some cumulative mass exceeds
      `p`, top-p keeps a best-first prefix, ending at or before that
      position, whose mass exceeds `p`, and removes everything after it. */
  lemma NucleusKeepsEnoughMass(s: seq<Score>, p: real, order: seq<nat>, probs: seq<real>, j: nat)
    returns (m: nat)
    requires IsDescendingOrder(s, order)
    requires |probs| == |s|
    requires forall i :: 0 <= i < |probs| ==> probs[i] >= 0.0
    requires j < |s| && Cum(probs, j) > p
    ensures m <= j && Cum(probs, m) > p
    ensures forall i :: 0 <= i < m ==> Cum(probs, i) <= p
    ensures PrefixKept(s, TopP(s, p, order, probs), order, m)
  {
    FirstCrossing(probs, p, j);
    m :| 0 <= m <= j && Cum(probs, m) > p && forall i :: 0 <= i < m ==> Cum(probs, i) <= p;
    NucleusIsSmallestPrefix(s, p, order, probs, m);
  }

  /** When no prefix mass exceeds `p`, top-p removes nothing. */
  lemma NucleusKeepsAllBelow(s: seq<Score>, p: real, order: seq<nat>, probs: seq<real>)
    requires IsDescendingOrder(s, order)
    requires |probs| == |s|
    requires forall j :: 0 <= j < |probs| ==> Cum(probs, j) <= p
    ensures TopP(s, p, order, probs) == s
  {
    var r := TopP(s, p, order, probs);
    forall i | 0 <= i < |s| ensures r[i] == s[i] {
      OrderCovers(s, order, i);
    }
  }

  // ---------------------------------------------------------------- softmax

  function Weight(v: Score, exp: real -> real): real
  {
    match v
    case Finite(x) => exp(x)
    case NegInf => 0.0
  }

  lemma {:induction false} SumNonNegative(xs: seq<real>)
    requires forall j :: 0 <= j < |xs| ==> xs[j] >= 0.0
    ensures Sum(xs) >= 0.0
  {
    if |xs| > 0 {
      SumNonNegative(xs[..|xs| - 1]);
    }
  }

  lemma {:induction false} SumDivided(xs: seq<real>, ys: seq<real>, z: real)
    requires z != 0.0
    requires |ys| == |xs|
    requires forall j :: 0 <= j < |xs| ==> ys[j] == xs[j] / z
    ensures Sum(ys) == Sum(xs) / z
  {
    if |xs| > 0 {
      SumDivided(xs[..|xs| - 1], ys[..|ys| - 1], z);
    }
  }

  /** The probabilities of a score vector, with `exp` standing for the
      exponential: negative infinity has weight zero, and the weights are
      divided by their total (all zero when the total is). */
  function Softmax(x: seq<Score>, exp: real -> real): (probs: seq<real>)
    ensures |probs| == |x|
  {
    var weights := seq(|x|, j requires 0 <= j < |x| => Weight(x[j], exp));
    var total := Sum(weights);
    seq(|x|, j requires 0 <= j < |x| => if total == 0.0 then 0.0 else weights[j] / total)
  }

  /** A score of negative infinity has probability zero, whatever `exp` is. */
  lemma SoftmaxRemoved(x: seq<Score>, exp: real -> real)
    ensures forall j :: 0 <= j < |x| && x[j] == NegInf ==> Softmax(x, exp)[j] == 0.0
  {
  }

  /** With a positive `exp`, the softmax gives every entry a probability of
      at least zero. */
  lemma SoftmaxNonNegative(x: seq<Score>, exp: real -> real)
    requires forall y :: exp(y) > 0.0
    ensures forall j :: 0 <= j < |x| ==> Softmax(x, exp)[j] >= 0.0
  {
    var weights := seq(|x|, j requires 0 <= j < |x| => Weight(x[j], exp));
    SumNonNegative(weights);
  }

  /** With a positive `exp` and some finite score, the softmax sums to one. */
  lemma SoftmaxSumsToOne(x: seq<Score>, exp: real -> real)
    requires forall y :: exp(y) > 0.0
    requires exists j :: 0 <= j < |x| && x[j] != NegInf
    ensures Sum(Softmax(x, exp)) == 1.0
  {
    var weights := seq(|x|, j requires 0 <= j < |x| => Weight(x[j], exp));
    var total := Sum(weights);
    PositiveTotal(weights, x, exp);
    var probs := Softmax(x, exp);
    assert forall j :: 0 <= j < |x| ==> probs[j] == weights[j] / total;
    SumDivided(weights, probs, total);
    assert total / total == 1.0;
  }

  lemma PositiveTotal(weights: seq<real>, x: seq<Score>, exp: real -> real)
    requires |weights| == |x|
    requires forall j :: 0 <= j < |x| ==> weights[j] == Weight(x[j], exp)
    requires forall y :: exp(y) > 0.0
    requires exists j :: 0 <= j < |x| && x[j] != NegInf
    ensures Sum(weights) > 0.0
  {
    var j :| 0 <= j < |x| && x[j] != NegInf;
    SplitSum(weights, j);
    SumNonNegative(weights[..j]);
    SumNonNegative(weights[j + 1..]);
  }

  lemma {:induction false} SumAppend(a: seq<real>, b: seq<real>)
    ensures Sum(a + b) == Sum(a) + Sum(b)
  {
    if |b| > 0 {
      assert (a + b)[..|a + b| - 1] == a + b[..|b| - 1];
      SumAppend(a, b[..|b| - 1]);
    } else {
      assert a + b == a;
    }
  }

  lemma SplitSum(xs: seq<real>, j: nat)
    requires j < |xs|
    ensures Sum(xs) == Sum(xs[..j]) + xs[j] + Sum(xs[j + 1..])
  {
    assert xs == xs[..j] + [xs[j]] + xs[j + 1..];
    SumAppend(xs[..j] + [xs[j]], xs[j + 1..]);
    SumAppend(xs[..j], [xs[j]]);
    assert [xs[j]][..0] == [];
  }

  // ---------------------------------------------------------------- composition

  /** The scores in the order `order` lists them. */
  function Permute(s: seq<Score>, order: seq<nat>): seq<Score>
    requires InBounds(order, |s|)
  {
    seq(|order|, j requires 0 <= j < |order| => s[order[j]])
  }

  /** Threshold filtering: entries strictly below `threshold` become
      negative infinity. */
  function Threshold(s: seq<Score>, threshold: Score): (r: seq<Score>)
    ensures OnlyFilters(s, r)
    ensures forall i :: 0 <= i < |s| ==> (r[i] == s[i] <==> (!Less(s[i], threshold) || s[i] == NegInf))
  {
    seq(|s|, i requires 0 <= i < |s| => if Less(s[i], threshold) then NegInf else s[i])
  }

  /** `min(top_k, vocabulary size)`, the number of entries top-k keeps. */
  function ClampK(topK: int, n: nat): int
  {
    if topK < n then topK else n
  }

  /** Whether the top-k step with clamped `k` removes entry `i`: top-k is on
      and at least `k` entries score strictly higher. */
  predicate TopKRemoves(s: seq<Score>, k: int, i: nat)
    requires i < |s|
  {
    0 < k && CountAbove(s, s[i]) >= k
  }

  /** The top-k step as the filter runs it: `topK` clamped to the
      vocabulary size, and no filtering when that is not positive. Entry `i`
      is removed exactly when top-k is on and at least `k` entries score
      strictly higher; a largest score always stays. */
  function TopKStep(s: seq<Score>, topK: int): (r: seq<Score>)
    ensures OnlyFilters(s, r)
    ensures forall i :: 0 <= i < |s| ==> r[i] == if TopKRemoves(s, ClampK(topK, |s|), i) then NegInf else s[i]
    ensures forall i :: IsMaxAt(s, i) ==> r[i] == s[i]
  {
    var k := ClampK(topK, |s|);
    if k > 0 then
      var r := TopK(s, k, DescendingOrder(s));
      forall i | IsMaxAt(s, i) ensures r[i] == s[i] {
        TopKKeepsMaxima(s, k, DescendingOrder(s), i);
      }
      r
    else s
  }

  /** The probabilities top-p accumulates: the softmax of the scores in
      descending order. */
  function SortedProbabilities(s: seq<Score>, exp: real -> real): (probs: seq<real>)
    ensures |probs| == |s|
  {
    Softmax(Permute(s, DescendingOrder(s)), exp)
  }

  /** The nucleus step as the filter runs it: sort, take the probabilities of
      the sorted scores, apply top-p. The entry at sorted position `j` is
      removed exactly when the sorted mass before it exceeds `p`; the
      best-ranked entry, a largest score, stays. */
  function NucleusStep(s: seq<Score>, p: real, exp: real -> real): (r: seq<Score>)
    ensures OnlyFilters(s, r)
    ensures forall j :: 0 <= j < |s| ==>
      r[DescendingOrder(s)[j]] ==
        if SortedRemoved(SortedProbabilities(s, exp), p, j) then NegInf else s[DescendingOrder(s)[j]]
    ensures |s| > 0 ==> IsMaxAt(s, DescendingOrder(s)[0]) && r[DescendingOrder(s)[0]] == s[DescendingOrder(s)[0]]
  {
    var order := DescendingOrder(s);
    var r := TopP(s, p, order, SortedProbabilities(s, exp));
    forall i | 0 <= i < |s| ensures r[i] == s[i] || r[i] == NegInf {
      OrderCovers(s, order, i);
    }
    r
  }

  /** The whole filter: top-k, then top-p when `topP` is positive, then the
      threshold. A survivor passed top-k and the threshold; with top-p off,
      exactly the entries top-k or the threshold removes are removed; with
      top-p on, every entry the nucleus step removes from the top-k result
      stays removed. */
  function Filter(s: seq<Score>, topK: int, topP: real, threshold: Score, exp: real -> real): (r: seq<Score>)
    ensures OnlyFilters(s, r)
    ensures forall i :: 0 <= i < |s| ==> r[i] == NegInf || !Less(r[i], threshold)
    ensures forall i :: 0 <= i < |s| && r[i] != NegInf ==>
      !TopKRemoves(s, ClampK(topK, |s|), i) && !Less(s[i], threshold)
    ensures topP <= 0.0 ==> forall i :: 0 <= i < |s| ==>
      r[i] == if TopKRemoves(s, ClampK(topK, |s|), i) || Less(s[i], threshold) then NegInf else s[i]
    ensures topP > 0.0 ==> forall j ::
      (0 <= j < |s| && SortedRemoved(SortedProbabilities(TopKStep(s, topK), exp), topP, j)) ==>
        r[DescendingOrder(TopKStep(s, topK))[j]] == NegInf
  {
    var afterK := TopKStep(s, topK);
    var afterP := if topP > 0.0 then NucleusStep(afterK, topP, exp) else afterK;
    Threshold(afterP, threshold)
  }

  /** The threshold of negative infinity removes nothing. */
  lemma ThresholdOff(s: seq<Score>)
    ensures Threshold(s, NegInf) == s
  {
  }

  /** With a positive exponential, some finite score and `0 < topP < 1`, the
      entries that survive the whole filter (default threshold) are a
      best-first prefix, ending at sorted position `m`, of the top-k
      survivors, and the softmax mass of that prefix exceeds `topP`. */
  lemma FilterKeepsNucleusMass(s: seq<Score>, topK: int, topP: real, exp: real -> real) returns (m: nat)
    requires forall y :: exp(y) > 0.0
    requires exists i :: 0 <= i < |s| && s[i] != NegInf
    requires 0.0 < topP < 1.0
    ensures var afterK := TopKStep(s, topK);
      && m < |s|
      && Cum(SortedProbabilities(afterK, exp), m) > topP
      && (forall i :: 0 <= i < m ==> Cum(SortedProbabilities(afterK, exp), i) <= topP)
      && PrefixKept(afterK, Filter(s, topK, topP, NegInf, exp), DescendingOrder(afterK), m)
  {
    var afterK := TopKStep(s, topK);
    TopKKeepsFinite(s, topK);
    m := NucleusKeepsMass(afterK, topP, exp);
    assert Filter(s, topK, topP, NegInf, exp) == NucleusStep(afterK, topP, exp) by {
      ThresholdOff(NucleusStep(afterK, topP, exp));
    }
  }

  /** A largest score survives top-k, so a finite score survives when there
      is one. */
  lemma TopKKeepsFinite(s: seq<Score>, topK: int)
    requires exists i :: 0 <= i < |s| && s[i] != NegInf
    ensures exists i :: 0 <= i < |s| && TopKStep(s, topK)[i] != NegInf
  {
    var i :| 0 <= i < |s| && s[i] != NegInf;
    FirstIsMax(s, DescendingOrder(s));
    var b := DescendingOrder(s)[0];
    assert LessEq(s[i], s[b]);
    assert TopKStep(s, topK)[b] == s[b];
  }

  /** The nucleus step on a vector with a finite score, for `0 < p < 1`,
      keeps a best-first prefix, ending at sorted position `m`, whose softmax
      mass exceeds `p`, and removes the rest. */
  lemma NucleusKeepsMass(x: seq<Score>, p: real, exp: real -> real) returns (m: nat)
    requires forall y :: exp(y) > 0.0
    requires exists i :: 0 <= i < |x| && x[i] != NegInf
    requires 0.0 < p < 1.0
    ensures m < |x| && Cum(SortedProbabilities(x, exp), m) > p
    ensures forall i :: 0 <= i < m ==> Cum(SortedProbabilities(x, exp), i) <= p
    ensures PrefixKept(x, NucleusStep(x, p, exp), DescendingOrder(x), m)
  {
    var order := DescendingOrder(x);
    var probs := SortedProbabilities(x, exp);
    assert Cum(probs, |x| - 1) > p && forall i :: 0 <= i < |probs| ==> probs[i] >= 0.0 by {
      SortedMassIsOne(x, exp);
      assert probs[..|x| - 1 + 1] == probs;
    }
    m := NucleusKeepsEnoughMass(x, p, order, probs, |x| - 1);
  }

  /** With a positive exponential and some finite score, the sorted
      probabilities form a distribution. */
  lemma SortedMassIsOne(x: seq<Score>, exp: real -> real)
    requires forall y :: exp(y) > 0.0
    requires exists i :: 0 <= i < |x| && x[i] != NegInf
    ensures forall i :: 0 <= i < |x| ==> SortedProbabilities(x, exp)[i] >= 0.0
    ensures Sum(SortedProbabilities(x, exp)) == 1.0
  {
    var order := DescendingOrder(x);
    var sorted := Permute(x, order);
    assert exists j :: 0 <= j < |sorted| && sorted[j] != NegInf by {
      var i :| 0 <= i < |x| && x[i] != NegInf;
      OrderCovers(x, order, i);
      var j :| 0 <= j < |order| && order[j] == i;
      assert sorted[j] == x[i];
    }
    SoftmaxSumsToOne(sorted, exp);
    SoftmaxNonNegative(sorted, exp);
  }


  /** With top-k and top-p off and the default threshold of negative
      infinity, the vector comes back unchanged. */
  lemma FilterDisabledIsIdentity(s: seq<Score>, topK: int, topP: real, exp: real -> real)
    requires topK <= 0 && topP <= 0.0
    ensures Filter(s, topK, topP, NegInf, exp) == s
  {
  }

  /** Under the default threshold, some largest score always survives the
      whole filter, so the filtered distribution is never empty. */
  lemma FilterKeepsBest(s: seq<Score>, topK: int, topP: real, exp: real -> real)
    requires |s| > 0
    ensures exists i :: IsMaxAt(s, i) && Filter(s, topK, topP, NegInf, exp)[i] == s[i]
  {
    var afterK := TopKStep(s, topK);
    var order := DescendingOrder(s);
    FirstIsMax(s, order);
    var m := order[0];
    assert afterK[m] == s[m];
    if topP > 0.0 {
      var afterP := NucleusStep(afterK, topP, exp);
      var b := DescendingOrder(afterK)[0];
      assert IsMaxAt(afterK, b) && afterP[b] == afterK[b];
      assert LessEq(afterK[m], afterK[b]);
      assert afterK[b] == s[b] by {
        if afterK[b] == NegInf {
          assert s[m] == NegInf;
        }
      }
      forall j | 0 <= j < |s| ensures LessEq(s[j], s[b]) {
        LessTransitive(s[j], s[m], s[b]);
      }
      assert Filter(s, topK, topP, NegInf, exp)[b] == s[b];
    } else {
      assert Filter(s, topK, topP, NegInf, exp)[m] == s[m];
    }
  }

  // ---------------------------------------------------------------- counterexample support
  //
  // The lemmas from here to `NucleusNotIdempotent` only evaluate the filter
  // on the fixed three-entry vector of that counterexample: the sort, the
  // softmax and the cumulative sums, one step each.

  lemma RangeOfThree()
    ensures Range(3) == [0, 1, 2]
  {
  }

  lemma InsertLast(s: seq<Score>)
    requires |s| == 3
    ensures Insert(s, 2, []) == [2]
  {
  }

  lemma InsertMiddle(s: seq<Score>)
    requires |s| == 3 && Less(s[2], s[1])
    ensures Insert(s, 1, [2]) == [1, 2]
  {
  }

  lemma InsertFirst(s: seq<Score>)
    requires |s| == 3 && Less(s[1], s[0])
    ensures Insert(s, 0, [1, 2]) == [0, 1, 2]
  {
  }

  lemma SortLast(s: seq<Score>)
    requires |s| == 3
    ensures Sort(s, [2]) == [2]
  {
    assert [2][1..] == [];
    InsertLast(s);
  }

  lemma SortLastTwo(s: seq<Score>)
    requires |s| == 3 && Less(s[2], s[1])
    ensures Sort(s, [1, 2]) == [1, 2]
  {
    assert [1, 2][1..] == [2];
    SortLast(s);
    InsertMiddle(s);
  }

  /** A strictly decreasing vector of three is already in order. */
  lemma OrderOfThree(s: seq<Score>)
    requires |s| == 3 && Less(s[1], s[0]) && Less(s[2], s[1])
    ensures DescendingOrder(s) == [0, 1, 2]
  {
    RangeOfThree();
    assert [0, 1, 2][1..] == [1, 2];
    SortLastTwo(s);
    InsertFirst(s);
  }

  lemma SumOfThree(a: real, b: real, c: real)
    ensures Sum([a, b, c]) == a + b + c
  {
    assert [a][..0] == [];
    assert Sum([a]) == a;
    assert [a, b][..1] == [a];
    assert Sum([a, b]) == a + b;
    assert [a, b, c][..2] == [a, b];
  }

  lemma CumOfThree(probs: seq<real>)
    requires |probs| == 3
    ensures Cum(probs, 0) == probs[0]
    ensures Cum(probs, 1) == probs[0] + probs[1]
  {
    assert probs[..1] == [probs[0]];
    assert [probs[0]][..0] == [];
    assert probs[..2][..1] == probs[..1];
    assert Sum(probs[..1]) == probs[0];
  }

  lemma SoftmaxOfThree(x: seq<Score>, w: real -> real, a: real, b: real, c: real)
    requires |x| == 3
    requires Weight(x[0], w) == a && Weight(x[1], w) == b && Weight(x[2], w) == c
    requires a + b + c != 0.0
    ensures Softmax(x, w) == [a / (a + b + c), b / (a + b + c), c / (a + b + c)]
  {
    assert seq(3, j requires 0 <= j < 3 => Weight(x[j], w)) == [a, b, c];
    SumOfThree(a, b, c);
  }

  /** On a strictly decreasing vector of three the nucleus step is top-p
      in the identity order over the vector's own softmax. */
  lemma NucleusStepOfThree(s: seq<Score>, p: real, w: real -> real)
    requires |s| == 3 && Less(s[1], s[0]) && Less(s[2], s[1])
    ensures IsDescendingOrder(s, [0, 1, 2])
    ensures NucleusStep(s, p, w) == TopP(s, p, [0, 1, 2], Softmax(s, w))
  {
    OrderOfThree(s);
    assert Permute(s, [0, 1, 2]) == s;
  }

  lemma FilterWithoutTopK(s: seq<Score>, p: real, w: real -> real)
    requires p > 0.0
    ensures Filter(s, 0, p, NegInf, w) == NucleusStep(s, p, w)
  {
    assert TopKStep(s, 0) == s;
  }

  lemma TopPOfThree(s: seq<Score>, p: real, probs: seq<real>)
    requires |s| == 3 && IsDescendingOrder(s, [0, 1, 2])
    requires |probs| == 3
    ensures TopP(s, p, [0, 1, 2], probs)
         == [s[0],
             if probs[0] > p then NegInf else s[1],
             if probs[0] + probs[1] > p then NegInf else s[2]]
  {
    CumOfThree(probs);
  }

  lemma NucleusOnce(w: real -> real, s: seq<Score>)
    requires forall y :: w(y) == y
    requires s == [Finite(5.0), Finite(3.0), Finite(2.0)]
    ensures Filter(s, 0, 0.6, NegInf, w) == [Finite(5.0), Finite(3.0), NegInf]
  {
    FilterWithoutTopK(s, 0.6, w);
    NucleusStepOfThree(s, 0.6, w);
    SoftmaxOfThree(s, w, 5.0, 3.0, 2.0);
    TopPOfThree(s, 0.6, Softmax(s, w));
  }

  lemma NucleusTwice(w: real -> real, once: seq<Score>)
    requires forall y :: w(y) == y
    requires once == [Finite(5.0), Finite(3.0), NegInf]
    ensures Filter(once, 0, 0.6, NegInf, w)[1] == NegInf
  {
    var r := NucleusStep(once, 0.6, w);
    assert r[1] == NegInf by {
      NucleusStepOfThree(once, 0.6, w);
      SoftmaxOfThree(once, w, 5.0, 3.0, 0.0);
      TopPOfThree(once, 0.6, Softmax(once, w));
    }
    FilterWithoutTopK(once, 0.6, w);
  }

  /** Filtering twice is not filtering once: the second top-p renormalises
      over the survivors and can remove more. With weights 5, 3, 2 (the
      exponentials of the logits) and top-p 0.6, the first pass keeps two
      entries and the second keeps one. */
  lemma NucleusNotIdempotent()
    ensures var w := (y: real) => y;
            var s := [Finite(5.0), Finite(3.0), Finite(2.0)];
            Filter(Filter(s, 0, 0.6, NegInf, w), 0, 0.6, NegInf, w) != Filter(s, 0, 0.6, NegInf, w)
  {
    var w := (y: real) => y;
    var s := [Finite(5.0), Finite(3.0), Finite(2.0)];
    NucleusOnce(w, s);
    NucleusTwice(w, [Finite(5.0), Finite(3.0), NegInf]);
  }
}
